=== FILE: README.md ===
# Raita AI dashboard: a Dafny model of its page logic

Raita AI is a single-page market-research dashboard for Middle-East
e-commerce sellers. A hash router loads HTML fragments into one shell with a
collapsible sidebar. Each page's script then adds its behaviour: a
market-insights product table, an AI chat, a dropshipping supplier search, a
marketing hub and a settings page. The repository ships two variants of
several scripts: `WWW-en/js/...` (English) and `WWW/js/...` with the root
`js/app.js`.

This project models the decision logic of those scripts as pure Dafny
functions over immutable state, and proves properties about it. Each DOM
element a handler reads or writes becomes a field of a datatype. Each
handler becomes a function from the old state (and its inputs) to the new
one. The modelled parts are:

- The hash router of both variants, and the English shell's sidebar state
  machine.
- The Settings page of both variants. This covers section switching,
  password checks and the strength indicator, profile validation,
  notification preferences and picture upload. The variants are kept apart,
  and a separate module relates them.
- The Market Insights table: category and search filtering, pagination,
  row selection, CSV export and profit bands.
- The Agent Chat page: the keyword classifier behind the canned replies,
  the transcript operations, history selection and the English variant's
  slide-over panel.
- The Dropshipping hub's supplier search, count and origin filter.
- The Marketing hub. This covers the market and country lookups, the AI
  studio toggle, the prompt guard and caption template, the export-format
  rule and the notification colours.

Modelling conventions:

- `confirm()` answers and the window width are parameters.
- Each `setTimeout`/debounce is modelled by the state after it fires. The chat reply timer and the supplier-filter timer are the exceptions. What they do depends on what happens before they fire, so each firing is an event of its own.
- Strings are sequences of characters. `toLowerCase`, `toUpperCase` and
  `trim` are modelled on ASCII letters and ASCII white space.
- `includes` is a substring test. `replace` with a string pattern replaces
  the first occurrence only. `slice` clamps its bounds.

Modules:

| file | module | models |
|---|---|---|
| common.dfy | Common | `Option`, toast notices |
| text.dfy | Text | JavaScript string operations used by the pages |
| seqs.dfy | Seqs | `filter`, `slice`, subsequences, runs of pairs |
| settings_nav.dfy | SettingsNav | the active-class logic of `switchSection`, the same in both settings.js |
| settings_en.dfy | SettingsEn | WWW-en/js/settings.js |
| settings_www.dfy | SettingsWww | WWW/js/settings.js |
| settings_compare.dfy | SettingsCompare | how the two settings variants relate |
| market_insight.dfy | MarketInsight | WWW-en/js/marketinsight.js |
| sidebar.dfy | Sidebar | the shell sidebar of WWW-en/js/app.js |
| router.dfy | Router | WWW-en/js/app.js and js/app.js routing |
| chat.dfy | Chat | the conversation logic both agentchat.js files share |
| chat_panel.dfy | ChatPanel | the chat page's own sidebar in WWW-en/js/agentchat.js |
| dropshipping.dfy | Dropshipping | WWW-en/js/dropshipping.js |
| marketing.dfy | Marketing | WWW/js/marketing.js |

## Model

| member | source | states |
|---|---|---|
| Text.Capitalize | WWW-en/js/app.js:304-306 | The first character is upper-cased, the rest are kept, and the length is unchanged. An empty string stays empty. |
| Text.CapitalizeFacts | js/app.js:81-83 | Capitalising is idempotent and changes nothing but case. |
| Text.TrimEmptyIff | WWW-en/js/agentchat.js:121-122 | A string trims to empty exactly when it is all white space. The send, generate and validation guards rely on this. |
| Text.TrimIdempotent | WWW-en/js/agentchat.js:121 | Trimming an already-trimmed message changes nothing. |
| Text.TrimIsInfix | WWW-en/js/settings.js:244 | `trim` removes only white space from both ends. The result is an infix that neither starts nor ends with white space. |
| Text.ContainsIff | WWW-en/js/agentchat.js:172-176 | The recursive `includes` test agrees with "occurs at some index". |
| Text.ContainsTransitive | WWW-en/js/dropshipping.js:88-91 | If s includes a longer query, s also includes every part of it. |
| Text.IndexOf | WWW-en/js/app.js:173 | `indexOf` returns the first occurrence, and none exactly when the pattern never occurs. |
| Text.ReplaceFirstFacts | WWW-en/js/app.js:173 | `replace` with an absent pattern changes nothing. With a leading pattern, it cuts that occurrence off. |
| Text.RemovePrefixedPattern | WWW-en/js/settings.js:386 | Removing the first "notify-" from "notify-" + key gives the key back. |
| Text.SplitJoin | WWW-en/js/marketinsight.js:403-406 | Splitting undoes joining when no part holds the separator. |
| Text.IntToString | WWW-en/js/marketinsight.js:400 | A number prints as a minus sign exactly when it is negative, followed by at least one digit, with no leading zero. |
| Text.IntToStringRoundTrip | WWW-en/js/marketinsight.js:400 | Reading the printed digits back gives the number printed. |
| Text.IntToStringInjective | WWW-en/js/marketinsight.js:400 | Different numbers print differently. |
| Seqs.Filter | WWW-en/js/marketinsight.js:225-227 | `filter` keeps exactly the elements the predicate accepts, in their order, as a subsequence. |
| Seqs.FilterWeakerKeepsMore | WWW-en/js/dropshipping.js:88-91 | Filtering with a weaker predicate keeps at least as many elements. |
| Seqs.Slice | WWW-en/js/marketinsight.js:251 | `slice` clamps both bounds, so the result is never longer than the input. |
| Seqs.SliceFacts | WWW-en/js/marketinsight.js:249-251 | For non-negative bounds, the slice holds the elements from start up to end, cut off at the sequence's end. |
| Seqs.PairsAppendFrom | WWW-en/js/agentchat.js:127-134 | Appending an accepted (question, answer) pair to a run of such pairs keeps it a run. |
| SettingsNav.SwitchSection | WWW-en/js/settings.js:217-241 | A nav item is active iff its data-section is the name. A section is active iff its id is name + "-section". Nothing else changes. |
| SettingsNav.ClickNavItem | WWW-en/js/settings.js:66-77 | A click on "logout" asks to log out; any other item switches sections. |
| SettingsNav.SwitchSectionLastWins | WWW/js/settings.js:94-110 | The result of a switch does not depend on the previous active section. |
| SettingsNav.SwitchSectionSingleActive | WWW-en/js/settings.js:226-232 | With distinct ids, at most one section is active. Exactly one is active iff a matching section exists. |
| SettingsEn.PasswordStrength | WWW-en/js/settings.js:444-454 | The score is at most 100. Under 8 characters it is at most 50; from 12 characters on it is at least 50. |
| SettingsEn.ScoreAtMostTotal | WWW-en/js/settings.js:444-454 | The reference weighted score never exceeds the total weight of the criteria. |
| SettingsEn.StrengthIsWeightedSum | WWW-en/js/settings.js:444-454 | The scorer equals the sum of the weights of the criteria met (25, 25, 20, 15, 15), whose total is 100. |
| SettingsEn.StrengthAtLeast50Iff | WWW-en/js/settings.js:416-420 | A password reaches 50 iff it has 12 characters, or 8 characters and two of mixed case, digit and symbol, or all three. |
| SettingsEn.StrengthMonotone | WWW-en/js/settings.js:444-454 | Appending characters never lowers the strength. |
| SettingsEn.LabelOf | WWW-en/js/settings.js:463-473 | The label is Strong iff score >= 75, Medium iff 50 <= score < 75, and Weak otherwise. |
| SettingsEn.StrengthIndicator | WWW-en/js/settings.js:456-495 | An empty password gets no indicator. Otherwise the bar width is the score, the label is the one the score earns, and the colour is the label's colour. |
| SettingsEn.LabelByClasses | WWW-en/js/settings.js:456-473 | The label is stated in terms of password length and character classes, both ways. |
| SettingsEn.Rank | WWW-en/js/settings.js:399-420 | Each password check has a position in the page's check order. |
| SettingsEn.FirstFailure | WWW-en/js/settings.js:399-420 | No failure iff no check fails. Otherwise the reported check fails and no earlier check does. |
| SettingsEn.UpdatePassword | WWW-en/js/settings.js:393-442 | The password is accepted iff every field is filled, the passwords match, it has 8+ characters and its strength is >= 50. Acceptance clears the form with "Password updated successfully!". A refusal reports the first failing check (FirstFailure), keeps the form and shows that check's warning. Only a mismatch or a short password gets an inline error, on the confirmation or the new-password field respectively. |
| SettingsEn.AcceptedPasswordNotWeak | WWW-en/js/settings.js:416-420 | An accepted password always showed a Medium or Strong indicator. |
| SettingsEn.FirstFailureIsEarliest | WWW-en/js/settings.js:399-420 | A form failing several checks reports one no later than any of them. |
| SettingsEn.PasswordMatchHint | WWW-en/js/settings.js:497-505 | The mismatch hint shows iff the confirmation is non-empty and differs. An empty confirmation leaves the hint alone. |
| SettingsEn.MismatchHintAgreesWithSubmit | WWW-en/js/settings.js:404-413 | A form showing the mismatch hint is refused at submit, for an empty field or the mismatch. |
| SettingsEn.IsEmailSound | WWW-en/js/settings.js:255-256 | The executable e-mail test implies the regular expression `^[^\s@]+@[^\s@]+\.[^\s@]+$`. |
| SettingsEn.IsEmailComplete | WWW-en/js/settings.js:255-256 | The regular expression implies the executable e-mail test. |
| SettingsEn.IsEmailIff | WWW-en/js/settings.js:255-256 | The executable e-mail test agrees with the regular expression, both ways. |
| SettingsEn.ValidateField | WWW-en/js/settings.js:243-277 | On the trimmed value: a name needs 2+ characters, an e-mail must match the pattern, a phone needs 10+ characters. Other ids are always valid. |
| SettingsEn.SaveProfile | WWW-en/js/settings.js:305-341 | The save succeeds iff all three fields are valid. Success stores the four values as typed and reports "Profile updated successfully!" (line 336); failure keeps the user data and warns "Please fix the errors before saving" (lines 314-316). `every` stops at the first invalid field: the field reported is full name iff it is invalid, e-mail iff the name is valid and the e-mail is not, phone iff only the phone is invalid. |
| SettingsEn.Setup2FA | WWW-en/js/settings.js:673-680 | It warns "Please enable 2FA first" iff the 2FA box is unticked; otherwise the setup modal opens. |
| SettingsEn.CompanyNeverValidated | WWW-en/js/settings.js:312 | The company field never affects whether a save goes through. |
| SettingsEn.SavedValuesAreUntrimmed | WWW-en/js/settings.js:319-322 | Values are validated trimmed but stored untrimmed: a padded valid name saves with its padding. |
| SettingsEn.UpdateNotificationPreference | WWW-en/js/settings.js:385-391 | Only the key named by the checkbox id without "notify-" changes; it takes the checked value. |
| SettingsEn.NotificationKeyOfCheckbox | WWW-en/js/settings.js:386 | The checkbox "notify-" + key updates that key. |
| SettingsEn.NotificationToggleNotice | WWW-en/js/settings.js:389-390 | The toggle's toast is an info notice. |
| SettingsEn.ToggleNoticeNamesKey | WWW-en/js/settings.js:386-390 | For the checkbox "notify-" + key the toast reads the key with its first letter upper-cased, then " notifications enabled" when ticked or " notifications disabled" when not. |
| SettingsEn.HandleFileUpload | WWW-en/js/settings.js:507-545 | No file means nothing happens. The upload is accepted iff the MIME type starts with "image/" and the size is at most 5 MiB; otherwise it warns. |
| SettingsEn.UploadLimitInclusive | WWW-en/js/settings.js:518-521 | Exactly 5 * 1024 * 1024 bytes pass; one byte more is refused. |
| SettingsWww.FirstFailure | WWW/js/settings.js:166-185 | The three checks are empty field, mismatch and length, each reported iff it is the first to fail. |
| SettingsWww.UpdatePassword | WWW/js/settings.js:166-203 | The password is accepted iff the fields are filled, they match and it has 8+ characters; there is no strength check. Acceptance clears the form with the success notice. A refusal reports the first failing check (FirstFailure), keeps the form and shows that check's warning. |
| SettingsWww.ClearedFormRefused | WWW/js/settings.js:195-198 | Resubmitting the cleared form is refused with the empty-field warning. |
| SettingsWww.HandleFileUpload | WWW/js/settings.js:205-217 | Any image is accepted regardless of size. A missing file gets the non-image warning. |
| SettingsWww.Setup2FA | WWW/js/settings.js:233-243 | It warns iff the 2FA box is unticked; otherwise it shows the wizard notice. |
| SettingsWww.SaveProfile | WWW/js/settings.js:112-138 | Any form is reported as saved. |
| SettingsWww.NotificationColour | WWW/js/settings.js:292-304 | success is #04910C, warning #FFA500, error #ED544E, and anything else #8237E8. |
| SettingsCompare.PasswordChecksCompare | WWW-en/js/settings.js:393-442 | Every password the English variant accepts, the other accepts too. They disagree exactly on the strength check. |
| SettingsCompare.WeakPasswordSplitsVariants | WWW/js/settings.js:166-203 | A password of 8-11 characters with at most one extra class passes one variant and fails the other. |
| SettingsCompare.UploadChecksCompare | WWW-en/js/settings.js:507-521 | The English upload check implies the other. They differ on a missing file and on images over 5 MiB. |
| SettingsCompare.ProfileChecksCompare | WWW/js/settings.js:112-138 | This variant reports every profile saved. Each profile the English variant saves gets the same notice here. A profile whose e-mail the English variant refuses is refused there but reported saved here. |
| SettingsCompare.TwoFactorCompare | WWW/js/settings.js:233-243 | Both variants give the same warning exactly when the box is unticked. Once it is ticked, the English variant opens the modal and this one only shows the info notice. |
| MarketInsight.FilteredProducts | WWW-en/js/marketinsight.js:221-242 | The two passes keep exactly what one filter by "in the category (or the bypass is set) and the name, id, origin or destination includes the query" keeps, copies and order included. |
| MarketInsight.TwoPassesAreOne | WWW-en/js/marketinsight.js:221-242 | The category pass followed by the search pass equals a single pass with both tests, whichever passes are switched off. |
| MarketInsight.NoFilterKeepsAll | WWW-en/js/marketinsight.js:225 | With the 'all categories' tab and no query, every product is listed in order. |
| MarketInsight.InitialFilterKeepsNothing | WWW-en/js/marketinsight.js:7 | With the constructor's category 'all', no mock product passes the filter (see Findings). |
| MarketInsight.CorrectedInitialKeepsAll | WWW-en/js/marketinsight.js:221-228 | The corrected initial state lists every product. It equals the state after clicking "All Categories". |
| MarketInsight.Search | WWW-en/js/marketinsight.js:210-218 | The query is stored lower-cased and untrimmed, and the page resets to 1. Nothing else changes. |
| MarketInsight.ChangeCategory | WWW-en/js/marketinsight.js:144-162 | The category becomes the tab's lower-cased text, and the page resets to 1. Nothing else changes. |
| MarketInsight.TotalPages | WWW-en/js/marketinsight.js:312 | `Math.ceil(n/10)`: the pages cover n items with no empty page, and zero pages iff no items. |
| MarketInsight.NextPage | WWW-en/js/marketinsight.js:93-103 | It advances only while a later page exists; nothing but the page changes. |
| MarketInsight.PrevPage | WWW-en/js/marketinsight.js:82-91 | It goes back only from page 2 on; nothing but the page changes. |
| MarketInsight.SelectPage | WWW-en/js/marketinsight.js:74-80 | The chosen page number becomes the page; nothing else changes. |
| MarketInsight.HandlersKeepPageValid | WWW-en/js/marketinsight.js:74-103 | Search, category change, next, previous and an offered page all keep the page valid. |
| MarketInsight.PageRowsFacts | WWW-en/js/marketinsight.js:248-251 | Page p shows at most ten rows, filtered items from (p-1)*10 on. It is empty iff the filtered list ends before that. |
| MarketInsight.UpdatePagination | WWW-en/js/marketinsight.js:310-346 | The bar shows start, end and total. The options are 1..totalPages with the current one selected. prev is disabled iff on page 1; next iff on the last page. |
| MarketInsight.RenderTable | WWW-en/js/marketinsight.js:244-308 | An empty page shows the empty state. Otherwise the rows are the page's rows and the bar is refreshed. What the rebuilt body does to the row selection is MarketInsight.Rerender. |
| MarketInsight.PageInfoMatchesRows | WWW-en/js/marketinsight.js:315-320 | On a valid page, "start - end of n" names exactly the rows shown. |
| MarketInsight.ButtonsDisabledIffNoop | WWW-en/js/marketinsight.js:338-345 | On a valid page, each button is disabled exactly when clicking it would do nothing. |
| MarketInsight.NextStopsAtLastPage | WWW-en/js/marketinsight.js:93-103 | Next stops at the last page. Before the last page, previous undoes next. |
| MarketInsight.CountChecked | WWW-en/js/marketinsight.js:203 | The checked count is at most the number of boxes. |
| MarketInsight.CountCheckedFacts | WWW-en/js/marketinsight.js:203-207 | The count equals the number of boxes iff all are checked, and is positive iff some box is checked. |
| MarketInsight.UpdateSelectAll | WWW-en/js/marketinsight.js:200-208 | Checked iff there are rows and all are checked. Indeterminate iff some but not all are checked. Never both. |
| MarketInsight.IndexSet | WWW-en/js/marketinsight.js:186 | The row indices 0..n-1. |
| MarketInsight.HandleSelectAll | WWW-en/js/marketinsight.js:184-198 | Every box takes the select-all value, and every row index is added or removed. Other indices keep their selection. |
| MarketInsight.ToggleRow | WWW-en/js/marketinsight.js:130-142 | Only box i changes. Index i is selected iff the box was checked, and every other index keeps its selection, so a consistent selection stays consistent. |
| MarketInsight.SelectAllThenBox | WWW-en/js/marketinsight.js:184-208 | After select-all, the box reads checked. After clearing, it reads neither checked nor indeterminate. |
| MarketInsight.Rerender | WWW-en/js/marketinsight.js:244-306 | A re-render gives one unticked box per row of the new page, and none for the empty state. The remembered selection is kept as it was. |
| MarketInsight.RerenderBreaksSelection | WWW-en/js/marketinsight.js:267-306 | After select-all, the selection agrees with the boxes and the select-all box reads checked. After a re-render to any non-empty page, index 0 is still selected while box 0 is unticked. The selection no longer agrees with the boxes, and the still-checked select-all box no longer matches them. |
| MarketInsight.CsvLines | WWW-en/js/marketinsight.js:391-407 | The export has one header line plus one line per product. |
| MarketInsight.JoinKeepsOut | WWW-en/js/marketinsight.js:403-406 | Joining never introduces a character other than the separator. |
| MarketInsight.IntToStringPlain | WWW-en/js/marketinsight.js:400 | A printed profit holds no comma or line break. |
| MarketInsight.CsvLinesSingle | WWW-en/js/marketinsight.js:403-406 | With plain fields, no line of the export holds a line break. |
| MarketInsight.PlainFromText | WWW-en/js/marketinsight.js:393-401 | A product whose six text fields are plain is plain. |
| MarketInsight.CsvRowRoundTrip | WWW-en/js/marketinsight.js:405 | A plain product's line splits back into its seven fields. |
| MarketInsight.CsvHeaderRoundTrip | WWW-en/js/marketinsight.js:392 | The header line splits back into the seven column names. |
| MarketInsight.CsvSplitLines | WWW-en/js/marketinsight.js:403-406 | Splitting the export on line breaks gives back its lines. |
| MarketInsight.CsvRoundTrip | WWW-en/js/marketinsight.js:391-407 | With plain fields, the export splits into n + 1 lines and each line into the header or the product's fields, in order. |
| MarketInsight.CommaInNameAddsColumn | WWW-en/js/marketinsight.js:391-407 | Nothing is quoted, so a name a + "," + b (other fields plain) reads back as eight fields, with a and b in the second and third. |
| MarketInsight.ProfitBandOf | WWW-en/js/marketinsight.js:483-485 | high iff profit > 100, medium iff 50 < profit <= 100, low otherwise. |
| MarketInsight.ProfitBandMonotone | WWW-en/js/marketinsight.js:483-485 | A larger profit never gets a lower band. |
| Sidebar.Open | WWW-en/js/app.js:128-140 | Opening only adds state: the overlay and scroll lock below 768 px, the main shift from 768 px on. |
| Sidebar.Close | WWW-en/js/app.js:142-148 | Closing clears every flag at any width. |
| Sidebar.Toggle | WWW-en/js/app.js:118-126 | Toggling flips the open state. |
| Sidebar.Resize | WWW-en/js/app.js:150-170 | The overlay, lock and shift are re-derived from the new width; open and aria-expanded stay. |
| Sidebar.InitialConsistent | WWW-en/js/app.js:142-148 | The initial shell is consistent at every width. |
| Sidebar.TransitionsKeepConsistent | WWW-en/js/app.js:102-170 | Open, close, toggle, Escape and overlay clicks keep the flags consistent. A resize re-establishes consistency for the new width. |
| Sidebar.OpenKeepsStaleShift | WWW-en/js/app.js:128-140 | Without that invariant, opening on a narrow window keeps a stale main shift. |
| Sidebar.ToggleTwice | WWW-en/js/app.js:118-126 | From a consistent state, toggling twice at one width restores the state. |
| Sidebar.ResizeAcrossBreakpoint | WWW-en/js/app.js:150-170 | Crossing 768 px moves an open sidebar's effect between the overlay and the shift. |
| Router.RouteKey | WWW-en/js/app.js:173 | The key is never empty. It is the hash with its first '#' removed, or "dashboard" when that is empty. |
| Router.RouteKeyOfFragment | js/app.js:35 | "#" + fragment gives the fragment (or the dashboard if empty); "" gives the dashboard. |
| Router.ResolveUrl | WWW-en/js/app.js:174 | A known key gets its route; any other key gets the dashboard fragment. The URL stays in the variant's html directory. |
| Router.DashboardFallbackIff | js/app.js:5-13 | The dashboard fragment is reached iff the key is "dashboard" or unknown. |
| Router.VariantsAgreeOnFragment | js/app.js:5-13 | Both variants resolve every key to the same fragment, in different directories. |
| Router.PageTitle | WWW-en/js/app.js:194 | The fragment's non-empty title is used; otherwise the capitalised key. |
| Router.ScriptFor | WWW-en/js/app.js:221-242 | Exactly chat, dropshipping, marketing, reports and settings get a page script. |
| Router.RouteNamesPage | WWW-en/js/app.js:10-18 | Every route names its page's fragment (agentchat for chat). |
| Router.ScriptMatchesFragment | WWW-en/js/app.js:221-242 | Every scripted page is a route, and its script is named like its fragment. |
| Router.UpdateActiveLinks | WWW-en/js/app.js:273-302 | A link with an href is active iff the href without its first '#' is the key. Links without an href are untouched. |
| Router.LoadPage | WWW-en/js/app.js:172-218 | A successful load shows the fragment, titles the page "Raita AI – title" (em dash in js/app.js), marks the links and loads the script (En only). A failure changes nothing but the content. A network error shows its own message. A non-OK response shows "HTTP error! status: N" (En) or "Page not found: url" (js/app.js:41). Only En adds the URL. |
| Router.ErrorMessageNamesStatus | WWW-en/js/app.js:178 | The status code reads back from En's error message, so different codes give different messages. |
| Router.UnknownRouteShowsDashboardUnmarked | js/app.js:34-68 | An unknown route fetches the dashboard fragment. The document title is the fragment's own title when it has one, else the unknown key capitalised. No link to a known route is active. |
| Router.ClickSidebarLink | WWW-en/js/app.js:81-94 | Only an href starting with '#' sets the hash, to the rest of the href. En also closes the sidebar below 768 px. |
| Router.ClickedLinkBecomesActive | js/app.js:22-31 | Clicking a '#'-link and loading the page leaves that link active. |
| Chat.Classify | WWW-en/js/agentchat.js:171-195 | The topic is product iff "product" or "supplier" occurs in the lower-cased text. It is market iff not product and "market" or "trend" occurs. Then price, for "price" or "cost"; otherwise general. |
| Chat.ReplyTitlesDistinct | WWW/js/agentchat.js:91-115 | No two topics share a reply title. |
| Chat.ResponseIgnoresCase | WWW-en/js/agentchat.js:172 | Upper- or lower-casing a message does not change its reply. |
| Chat.ProductKeywordWins | WWW-en/js/agentchat.js:174-178 | A product keyword anywhere, in any case, wins over every other keyword. |
| Chat.SendMessage | WWW-en/js/agentchat.js:120-135 | A blank input changes nothing. Otherwise the trimmed text is posted at once, the input is cleared, and the text joins the queue of replies to come. |
| Chat.ReplyFires | WWW-en/js/agentchat.js:131-133 | The oldest reply timer appends the AI message for the text it was scheduled for, and leaves the rest of the queue. |
| Chat.SendAppendsExchange | WWW-en/js/agentchat.js:126-134 | With no reply pending, a send followed by its timer appends exactly the trimmed text, then the reply to that same text. |
| Chat.SentTextIsPosted | WWW/js/agentchat.js:40-55 | What is posted is non-empty and already trimmed. |
| Chat.ReplyAnswers | WWW-en/js/agentchat.js:150-155 | The AI message for a posted text answers it and shows that text's canned reply. |
| Chat.SendKeepsWellFormed | WWW-en/js/agentchat.js:120-169 | If each reply fires before the next event, the transcript after the two demo messages stays a run of posted user messages, each followed by the reply to its own text. |
| Chat.QuickResendInterleaves | WWW-en/js/agentchat.js:120-134 | Two sends within a second post both texts before either reply, so the transcript is no longer a run of exchanges. |
| Chat.NewChatOrphanReply | WWW-en/js/agentchat.js:197-209 | A new chat within a second of a send removes the user message, but its reply still arrives after the demo messages. |
| Chat.ReplayMeaning | WWW-en/js/agentchat.js:131-133 | Reading messages against the reply queue: the AI messages answer, in order, a prefix of the queued and posted texts, and the rest is what stays queued. |
| Chat.InitialInSendOrder | WWW-en/js/agentchat.js:5-16 | A fresh page with its two demo messages and no pending reply has its replies in send order. |
| Chat.EventsKeepSendOrder | WWW-en/js/agentchat.js:120-209 | Sends, timers and new chats all keep the replies in send order. A new chat turns the texts still queued into orphans whose replies come first. |
| Chat.SendKeepsSendOrder | WWW-en/js/agentchat.js:120-134 | A send keeps the replies in send order. |
| Chat.ReplyKeepsSendOrder | WWW-en/js/agentchat.js:131-133 | A timer firing keeps the replies in send order. |
| Chat.SendOrderMeaning | WWW-en/js/agentchat.js:120-155 | In every such transcript the k-th AI message answers the k-th text sent (orphans first), and the pending replies are for exactly the texts not yet answered. |
| Chat.CreateNewChat | WWW-en/js/agentchat.js:197-209 | Declined: nothing changes. Confirmed: everything after the first two messages goes and the input is cleared. |
| Chat.NewChatFacts | WWW/js/agentchat.js:117-129 | A new chat is well formed and a prefix of the old transcript. A second new chat changes nothing. |
| Chat.NewChatDropsExchanges | WWW-en/js/agentchat.js:197-209 | A message sent after the demo messages does not survive a new chat. |
| Chat.SelectHistoryItem | WWW/js/agentchat.js:131-146 | The clicked item is active and every other item is inactive. |
| Chat.SingleActiveHistoryItem | WWW-en/js/agentchat.js:211-228 | Exactly one item is active; clicking it again changes nothing. |
| ChatPanel.Open | WWW-en/js/agentchat.js:95-102 | Opening sets every flag when the panel, overlay and toggle all exist, and does nothing otherwise. |
| ChatPanel.Close | WWW-en/js/agentchat.js:104-111 | Closing clears every flag when all three exist, and does nothing otherwise. |
| ChatPanel.Toggle | WWW-en/js/agentchat.js:83-93 | Toggling flips the open state when all three exist. |
| ChatPanel.Escape | WWW-en/js/agentchat.js:67-71 | Escape acts only on a panel that exists and is open, and closes it. |
| ChatPanel.Resize | WWW-en/js/agentchat.js:113-118 | A window wider than 1024 px closes the panel; at 1024 px or less nothing changes. |
| ChatPanel.ClickHistoryItem | WWW-en/js/agentchat.js:211-228 | A history click selects the clicked item and closes the panel at 1024 px or less. |
| ChatPanel.TransitionsKeepConsistent | WWW-en/js/agentchat.js:83-118 | Every transition keeps the flags moving together. Without all three elements, nothing changes. |
| ChatPanel.ToggleTwice | WWW-en/js/agentchat.js:83-93 | Toggling twice restores a consistent panel. |
| Dropshipping.HandleSearch | WWW-en/js/dropshipping.js:80-96 | A normalised query under 2 characters shows every supplier under "Smart Coffee Maker". A longer one counts the suppliers whose name or company includes it, under the query as typed. |
| Dropshipping.NarrowerQueryCountsFewer | WWW-en/js/dropshipping.js:86-94 | A query containing another never counts more suppliers. |
| Dropshipping.CountIgnoresPaddingAndCase | WWW-en/js/dropshipping.js:81 | Leading blanks and letter case do not change the count. |
| Text.TrimOfUpper | WWW-en/js/dropshipping.js:81 | Trimming commutes with upper-casing. |
| Dropshipping.CountryName | WWW-en/js/dropshipping.js:114-122 | The four codes get their display names; any other code is shown as it is. |
| Dropshipping.CountryNameIdempotent | WWW-en/js/dropshipping.js:114-122 | Looking a display name up again leaves it unchanged. |
| Dropshipping.ChangeOrigin | WWW-en/js/dropshipping.js:24-29 | Only the current filter changes; the list and the count stay as they are. |
| Dropshipping.OriginSettled | WWW-en/js/dropshipping.js:98-112 | When the timer fires, an info notice names the country of the filter as it is at that moment. |
| Dropshipping.OriginNoticeNamesChoice | WWW-en/js/dropshipping.js:24-29 | If the timer fires before another change, the notice names the country just chosen. |
| Dropshipping.QuickChangesNameLatest | WWW-en/js/dropshipping.js:104-111 | After two changes within half a second, the first timer's notice names the second country. It names the first only when both have the same display name. |
| Dropshipping.SearchIgnoresOrigin | WWW-en/js/dropshipping.js:98-112 | The origin filter never reaches the search count. |
| Marketing.MarketName | WWW/js/marketing.js:60-68 | The four markets get their full names; any other value is shown as it is. |
| Marketing.MarketNameIdempotent | WWW/js/marketing.js:60-68 | Looking a full name up again leaves it unchanged. |
| Marketing.LookupsAgreeIff | WWW/js/marketing.js:60-68 | The market lookup and the Dropshipping country lookup give the same name exactly for "qatar" and for values neither table knows. |
| Marketing.MarketChangeNotice | WWW/js/marketing.js:57 | The notice is "Updated recommendations for" the market's full name, as info. |
| Marketing.ToggleStudio | WWW/js/marketing.js:70-75 | "none" becomes "block", anything else becomes "none", and a missing studio stays missing. |
| Marketing.ToggleStudioTwice | WWW/js/marketing.js:70-75 | Two toggles restore a shown or hidden studio. An unset display ends as "block". |
| Marketing.Caption | WWW/js/marketing.js:102-109 | The caption starts with the sparkle prefix and is as long as prefix, prompt and suffix together. |
| Marketing.CaptionRoundTrip | WWW/js/marketing.js:102-109 | The prompt can be read back from its caption, so different prompts give different captions. |
| Marketing.GenerateContent | WWW/js/marketing.js:77-100 | Without the input or button, nothing happens. A blank prompt warns. Otherwise the input is cleared, the caption carries the trimmed prompt and an info notice follows. |
| Marketing.GenerateThenRegenerate | WWW/js/marketing.js:77-100 | After a successful generation, a second click on the cleared input only warns and leaves the studio unchanged. |
| Marketing.ExportFormat | WWW/js/marketing.js:135 | The format is Excel iff the button text contains "Excel" (case-sensitive), and PDF otherwise. |
| Marketing.ExcelAnywhere | WWW/js/marketing.js:130-139 | Any label mentioning Excel anywhere exports Excel. |
| Marketing.ExportNotices | WWW/js/marketing.js:141-148 | The export shows "Exporting data as F..." (info), then "F file downloaded successfully!" (success). |
| Marketing.NotificationColour | WWW/js/marketing.js:162 | success is #04910C, warning #FFA500, and anything else, error included, #8237E8. |
| Marketing.ColoursAgreeExceptError | WWW/js/marketing.js:162 | This page and the Settings page agree on every colour except error. |

## Left out

- DOM rendering, HTML templates, CSS classes beyond the flags modelled, `fetch`/`DOMParser`, `FileReader`, Blob downloads and toast elements. These are browser I/O. Their observable decisions are modelled as data.
- SettingsNav.SwitchSection: the English variant also scrolls the window to the top below 768 px (WWW-en/js/settings.js:234-237). Scrolling is browser I/O, so it is not modelled.
- Timers, debounces and toast removal delays: only the state after each timer fires is modelled. The chat reply timers and the supplier-filter timer are modelled as separate events, because what they show depends on what happened in between.
- String lengths count characters, not UTF-16 code units. `\s`, `toLowerCase` and `toUpperCase` are modelled on ASCII only.
- Prices are kept as the text the export prints. The random mock data of `generateMockData` (floating point, `Math.random`, `toFixed`) is not modelled. Profit bands are modelled from an integer profit.
- WWW-en/js/reports.js and js/reports.js are not part of this model.
- `handleExportButtons`, `handleAddToDropshipping`, `addToSalesChannel`, the row action buttons, keyboard shortcuts, `handleLogout`, payment cards, `savePreferences`, `removeProfilePicture`, the contents of the English 2FA setup modal and `escapeHtml`: presentation-only or outside the core logic.
- Router.HashAfterAssign: the browser's hash normalisation is not modelled; assigning h is taken to report "#" + h.
- Router.ResolveUrl: lookups through the object prototype chain (a route key or notification type such as "constructor") are not modelled; such keys count as unknown. SettingsWww.NotificationColour, Dropshipping.CountryName (WWW-en/js/dropshipping.js:121) and Marketing.MarketName (WWW/js/marketing.js:67) are treated the same way: "constructor" maps to itself rather than to an inherited property.
- Chat: the demo messages' contents are not modelled; they are the first two messages of the transcript.
- Chat.SendKeepsWellFormed: it assumes each reply fires before the next send or new chat. The page has no such guard. Chat.QuickResendInterleaves (user, user, reply, reply) and Chat.NewChatOrphanReply (a reply with no question on screen) show what happens otherwise. Chat.SendOrderMeaning states what always holds.
- Chat: an AI message is recorded by the text its reply was generated from. What the page displays for it is Chat.Shown of that message.
- Chat.GenerateResponse carries no contract of its own. Its behaviour is stated through Chat.Classify and Chat.ReplyTitlesDistinct.
- The marketinsight toast colours and the dropshipping notification colour are not modelled.
- Router.LoadPage assumes the main container exists; a page without one does nothing, which is not modelled.
- Dropshipping.HandleSearch: the results line is modelled by its count and query, not its markup.

## Findings

| source | as written | input that shows it | evidently intended | confidence | as-written member | corrected member |
|---|---|---|---|---|---|---|
| WWW-en/js/marketinsight.js:7 | The constructor sets the category to 'all'. The filter's bypass at line 225 is 'all categories', so 'all' is treated as a real category. | Any re-render before a tab is clicked (search, next, page select, export): every mock product's category differs from 'all'. The table shows "No products found", Next never advances and the CSV is header-only. | Start with the category the "All Categories" tab sets, 'all categories', so the first filtering lists every product. | not executed | MarketInsight.InitialFilterKeepsNothing | MarketInsight.CorrectedInitialKeepsAll |

=== FILE: chat.dfy ===
/**
 * The Agent Chat page's conversation logic. WWW-en/js/agentchat.js and
 * WWW/js/agentchat.js share the keyword classifier behind the canned AI
 * replies, sending a message and starting a new chat line for line. Their
 * history-item handlers share only the update of the active flags: the
 * English one also closes the chat panel (see ChatPanel.ClickHistoryItem),
 * the other only logs the item.
 *
 * The transcript is the sequence of message elements in the chat area.
 * The page's demo messages come with the page and are not modelled by
 * content: they are the first messages of the transcript. The one-second
 * reply timers are a queue of texts awaiting their replies, and a timer
 * firing is an event of its own.
 */
module Chat {
  import opened Common
  import opened Text
  import opened Seqs

  /** The four kinds of canned answer, in the classifier's priority order. */
  datatype Topic = ProductSearch | MarketAnalysis | Pricing | General

  datatype Reply = Reply(title: string, text: string)

  predicate MentionsProduct(lower: string)
  {
    Contains(lower, "product") || Contains(lower, "supplier")
  }

  predicate MentionsMarket(lower: string)
  {
    Contains(lower, "market") || Contains(lower, "trend")
  }

  predicate MentionsPrice(lower: string)
  {
    Contains(lower, "price") || Contains(lower, "cost")
  }

  /** The branch `generateResponse` takes for a message: keywords are
      matched in the lower-cased text, earlier groups first. */
  function Classify(message: string): (t: Topic)
    ensures t == ProductSearch <==> MentionsProduct(ToLower(message))
    ensures t == MarketAnalysis <==> !MentionsProduct(ToLower(message)) && MentionsMarket(ToLower(message))
    ensures t == Pricing <==>
              !MentionsProduct(ToLower(message)) && !MentionsMarket(ToLower(message)) && MentionsPrice(ToLower(message))
    ensures t == General <==>
              !MentionsProduct(ToLower(message)) && !MentionsMarket(ToLower(message)) && !MentionsPrice(ToLower(message))
  {
    var lower := ToLower(message);
    if MentionsProduct(lower) then ProductSearch
    else if MentionsMarket(lower) then MarketAnalysis
    else if MentionsPrice(lower) then Pricing
    else General
  }

  const ProductSearchTitle: string := "Product Search Results"
  const MarketAnalysisTitle: string := "Market Analysis"
  const PricingTitle: string := "Pricing Information"
  const GeneralTitle: string := "AI Response"

  /** The heading of each topic's reply. */
  function Title(t: Topic): string
  {
    match t
    case ProductSearch => ProductSearchTitle
    case MarketAnalysis => MarketAnalysisTitle
    case Pricing => PricingTitle
    case General => GeneralTitle
  }

  const ProductSearchText: string :=
    "I found several relevant suppliers and products matching your criteria. Let me show you the top options with competitive pricing and reliable shipping."
  const MarketAnalysisText: string :=
    "Based on current market trends, I can provide insights into consumer behavior, pricing strategies, and emerging opportunities in your target region."
  const PricingText: string :=
    "I've analyzed the pricing data across multiple suppliers. Here's a breakdown of costs including shipping, taxes, and potential profit margins."
  const GeneralText: string :=
    "I understand your query. Let me help you find the best solution for your business needs. Could you provide more specific details?"

  /** The text of each topic's reply. */
  function Body(t: Topic): string
  {
    match t
    case ProductSearch => ProductSearchText
    case MarketAnalysis => MarketAnalysisText
    case Pricing => PricingText
    case General => GeneralText
  }

  function ReplyFor(t: Topic): Reply
  {
    Reply(Title(t), Body(t))
  }

  /** The four titles have different lengths, so no two topics share one. */
  lemma ReplyTitlesDistinct(t: Topic, u: Topic)
    ensures Title(t) == Title(u) <==> t == u
  {
    assert |Title(ProductSearch)| == 22;
    assert |Title(MarketAnalysis)| == 15;
    assert |Title(Pricing)| == 19;
    assert |Title(General)| == 11;
  }

  /** `generateResponse`: the reply of the message's topic. */
  function GenerateResponse(message: string): Reply
  {
    ReplyFor(Classify(message))
  }

  /** Case does not matter: upper-casing or lower-casing a message does not
      change its answer. */
  lemma ResponseIgnoresCase(message: string)
    ensures GenerateResponse(ToUpper(message)) == GenerateResponse(message)
    ensures GenerateResponse(ToLower(message)) == GenerateResponse(message)
  {
    ToLowerOfToUpper(message);
    ToLowerIdempotent(message);
  }

  /** A product keyword anywhere, in any case, wins over every other
      keyword in the message. */
  lemma ProductKeywordWins(before: string, keyword: string, after: string)
    requires ToLower(keyword) == "product" || ToLower(keyword) == "supplier"
    ensures Classify(before + keyword + after) == ProductSearch
  {
    var lower := ToLower(before + keyword + after);
    ToLowerAppend(before + keyword, after);
    ToLowerAppend(before, keyword);
    assert lower == ToLower(before) + ToLower(keyword) + ToLower(after);
    assert OccursAt(lower, ToLower(keyword), |before|) by {
      assert lower[|before|..|before| + |keyword|] == ToLower(keyword);
    }
    ContainsInfix(lower, |before|, ToLower(keyword));
  }

  // =====================================================================
  // The transcript

  /** A message in the chat area. An AI message is recorded by the text
      `addAIResponse` was called with; what it shows is the canned reply to
      that text (`Shown`). */
  datatype Message = UserMessage(text: string) | AiMessage(answerTo: string)

  /** The reply an AI message shows. */
  function Shown(m: Message): Reply
    requires m.AiMessage?
  {
    GenerateResponse(m.answerTo)
  }

  /** The chat area, the input box and the replies still to come: the
      texts whose one-second reply timers have not fired yet, in the order
      they were sent. All timers have the same delay, so they fire in that
      order, and nothing cancels them. */
  datatype ChatState = ChatState(messages: seq<Message>, input: string, pending: seq<string>)

  /** `sendMessage`: a message that is blank after trimming changes
      nothing; otherwise the trimmed text is posted at once, the input is
      cleared and a reply to that same text is scheduled. */
  function SendMessage(s: ChatState): (r: ChatState)
    ensures AllSpace(s.input) ==> r == s
    ensures !AllSpace(s.input) ==>
              r.input == ""
              && r.messages == s.messages + [UserMessage(Trim(s.input))]
              && r.pending == s.pending + [Trim(s.input)]
  {
    var message := Trim(s.input);
    TrimEmptyIff(s.input);
    if message == "" then s
    else ChatState(s.messages + [UserMessage(message)], "", s.pending + [message])
  }

  /** The oldest reply timer fires: `addAIResponse` appends the reply to
      the text that timer was scheduled for, and nothing else changes. */
  function ReplyFires(s: ChatState): (r: ChatState)
    requires s.pending != []
    ensures r.messages == s.messages + [AiMessage(s.pending[0])]
    ensures r.pending == s.pending[1..] && r.input == s.input
  {
    ChatState(s.messages + [AiMessage(s.pending[0])], s.input, s.pending[1..])
  }

  /** A text the send handler would post: non-blank and already trimmed. */
  predicate Posted(text: string)
  {
    text != "" && Trim(text) == text
  }

  /** A user message and the AI message that answers it. */
  predicate Answers(question: Message, answer: Message)
  {
    question.UserMessage? && Posted(question.text) && answer == AiMessage(question.text)
  }

  /** A run of completed exchanges: each posted user message followed by
      the reply to it. */
  predicate Exchanges(ms: seq<Message>)
  {
    Pairs(ms, Answers)
  }

  /** The number of demo messages a new chat keeps. */
  const KeptMessages: nat := 2

  /** The transcript is the demo messages followed by completed exchanges. */
  predicate WellFormed(s: ChatState)
  {
    |s.messages| <= KeptMessages || Exchanges(s.messages[KeptMessages..])
  }

  /** What the send handler posts is a posted text. */
  lemma SentTextIsPosted(input: string)
    requires !AllSpace(input)
    ensures Posted(Trim(input))
  {
    TrimIdempotent(input);
    TrimEmptyIff(input);
  }

  /** A non-blank send whose reply fires before anything else happens
      appends the posted text and the reply to it. */
  lemma SendAppendsExchange(s: ChatState)
    requires !AllSpace(s.input) && s.pending == []
    ensures SendMessage(s).pending == [Trim(s.input)]
    ensures ReplyFires(SendMessage(s)).messages
              == s.messages + [UserMessage(Trim(s.input)), AiMessage(Trim(s.input))]
    ensures ReplyFires(SendMessage(s)).pending == []
  {
    TrimEmptyIff(s.input);
    var text := Trim(s.input);
    var s1 := SendMessage(s);
    assert s1 == ChatState(s.messages + [UserMessage(text)], "", [text]);
    AppendTwice(s.messages, UserMessage(text), AiMessage(text));
  }

  /** The reply to a posted text answers it, showing that text's canned
      reply. */
  lemma ReplyAnswers(text: string)
    requires Posted(text)
    ensures Answers(UserMessage(text), AiMessage(text))
    ensures Shown(AiMessage(text)) == ReplyFor(Classify(text))
  {
  }

  /** When each reply fires before the next event, sending keeps the
      transcript well formed: every user message in it is answered by the
      reply to its own text. The two lemmas after this one show the
      transcript losing that shape when a send or a new chat comes first. */
  lemma SendKeepsWellFormed(s: ChatState)
    requires WellFormed(s) && |s.messages| >= KeptMessages && s.pending == []
    ensures AllSpace(s.input) ==> SendMessage(s) == s
    ensures !AllSpace(s.input) ==>
              SendMessage(s).pending != [] && WellFormed(ReplyFires(SendMessage(s)))
              && ReplyFires(SendMessage(s)).pending == []
  {
    if !AllSpace(s.input) {
      var text := Trim(s.input);
      SentTextIsPosted(s.input);
      ReplyAnswers(text);
      PairsAppendFrom(s.messages, KeptMessages, UserMessage(text), AiMessage(text), Answers);
      SendAppendsExchange(s);
    }
  }

  /** Two sends within a second: both texts are posted before either
      reply, so the transcript is no longer a run of exchanges. */
  lemma QuickResendInterleaves(s: ChatState, second: string)
    requires |s.messages| == KeptMessages && s.pending == []
    requires !AllSpace(s.input) && !AllSpace(second)
    ensures var r := ReplyFires(ReplyFires(SendMessage(SendMessage(s).(input := second))));
            r.messages == s.messages + [UserMessage(Trim(s.input)), UserMessage(Trim(second)),
                                        AiMessage(Trim(s.input)),
                                        AiMessage(Trim(second))]
            && r.pending == [] && !WellFormed(r)
  {
    var first := Trim(s.input);
    var s2 := SendMessage(SendMessage(s).(input := second));
    TwoSendsQueueBoth(s, second);
    var r := ReplyFires(ReplyFires(s2));
    AppendFour(s.messages, UserMessage(first), UserMessage(Trim(second)),
               AiMessage(first), AiMessage(Trim(second)));
    assert r.messages[KeptMessages..][1].UserMessage?;
  }

  lemma TwoSendsQueueBoth(s: ChatState, second: string)
    requires s.pending == [] && !AllSpace(s.input) && !AllSpace(second)
    ensures SendMessage(SendMessage(s).(input := second))
              == ChatState(s.messages + [UserMessage(Trim(s.input))] + [UserMessage(Trim(second))], "",
                           [Trim(s.input), Trim(second)])
  {
    var s1 := SendMessage(s);
    assert s1 == ChatState(s.messages + [UserMessage(Trim(s.input))], "", [Trim(s.input)]);
  }

  /** A new chat within a second of a send: the user message goes, but
      its reply still arrives, after the demo messages and answering
      nothing on screen. */
  lemma NewChatOrphanReply(s: ChatState)
    requires |s.messages| == KeptMessages && s.pending == [] && !AllSpace(s.input)
    ensures var r := ReplyFires(CreateNewChat(SendMessage(s), true));
            r.messages == s.messages + [AiMessage(Trim(s.input))]
            && r.pending == [] && !WellFormed(r)
  {
    var r := ReplyFires(CreateNewChat(SendMessage(s), true));
    assert r.messages[KeptMessages..] == [AiMessage(Trim(s.input))];
  }

  // ---------------------------------------------------------------------
  // Replies in send order

  /** One message read against the queue of unanswered texts: a user
      message joins the queue, and an AI message must answer its head. */
  function Step(queue: seq<string>, m: Message): Option<seq<string>>
  {
    match m
    case UserMessage(text) => Some(queue + [text])
    case AiMessage(answerTo) => if queue != [] && answerTo == queue[0] then Some(queue[1..]) else None
  }

  /** Reading a run of messages from a starting queue, oldest first: the
      texts left unanswered at the end, or None when some AI message does
      not answer the oldest unanswered text. */
  function Replay(ms: seq<Message>, queue: seq<string>): Option<seq<string>>
    decreases |ms|
  {
    if ms == [] then Some(queue)
    else match Replay(ms[..|ms| - 1], queue)
      case None => None
      case Some(q) => Step(q, ms[|ms| - 1])
  }

  /** The texts of the user messages, in order. */
  function UserTexts(ms: seq<Message>): seq<string>
    decreases |ms|
  {
    if ms == [] then []
    else UserTexts(ms[..|ms| - 1]) + (if ms[|ms| - 1].UserMessage? then [ms[|ms| - 1].text] else [])
  }

  /** The texts the AI messages answer, in order. */
  function AnsweredTexts(ms: seq<Message>): seq<string>
    decreases |ms|
  {
    if ms == [] then []
    else AnsweredTexts(ms[..|ms| - 1]) + (if ms[|ms| - 1].AiMessage? then [ms[|ms| - 1].answerTo] else [])
  }

  /** The replies arrive in send order: the k-th reply after the demo
      messages answers the k-th text sent (counting the texts whose user
      messages a new chat removed while their replies were pending), and
      the queue holds the texts still to be answered. `orphans` are those
      removed texts. */
  predicate InSendOrder(s: ChatState, orphans: seq<string>)
  {
    |s.messages| >= KeptMessages && Replay(s.messages[KeptMessages..], orphans) == Some(s.pending)
  }

  /** What `Replay` succeeding means: the AI messages answer, in order, a
      prefix of the texts of the starting queue followed by the user
      messages' texts, and what is left over is the rest of those texts. */
  lemma {:induction false} ReplayMeaning(ms: seq<Message>, queue: seq<string>)
    requires Replay(ms, queue).Some?
    ensures var sent := queue + UserTexts(ms);
            var answered := |AnsweredTexts(ms)|;
            answered <= |sent| && AnsweredTexts(ms) == sent[..answered]
            && Replay(ms, queue).value == sent[answered..]
    decreases |ms|
  {
    if ms != [] {
      var init := ms[..|ms| - 1];
      var last := ms[|ms| - 1];
      ReplayMeaning(init, queue);
      var sent := queue + UserTexts(init);
      var q := Replay(init, queue).value;
      var a := |AnsweredTexts(init)|;
      assert q == sent[a..];
      assert Replay(ms, queue) == Step(q, last);
      if last.UserMessage? {
        assert queue + UserTexts(ms) == sent + [last.text];
        assert AnsweredTexts(ms) == AnsweredTexts(init);
        assert Replay(ms, queue).value == q + [last.text];
        assert (sent + [last.text])[a..] == q + [last.text];
        assert (sent + [last.text])[..a] == sent[..a];
      } else {
        assert queue + UserTexts(ms) == sent;
        assert AnsweredTexts(ms) == AnsweredTexts(init) + [last.answerTo];
        assert Replay(ms, queue).value == q[1..];
        assert q[1..] == sent[a + 1..];
        assert last.answerTo == sent[a];
        assert sent[..a + 1] == sent[..a] + [sent[a]];
      }
    }
  }

  /** In a transcript whose replies are in send order, the AI messages
      after the demo messages answer the texts sent (orphans first), one
      each and in order, and the replies still to come are for exactly the
      remaining texts. */
  lemma SendOrderMeaning(s: ChatState, orphans: seq<string>)
    requires InSendOrder(s, orphans)
    ensures var tail := s.messages[KeptMessages..];
            var sent := orphans + UserTexts(tail);
            var n := |AnsweredTexts(tail)|;
            n <= |sent| && AnsweredTexts(tail) == sent[..n] && s.pending == sent[n..]
  {
    ReplayMeaning(s.messages[KeptMessages..], orphans);
  }

  lemma ReplayAppend(ms: seq<Message>, queue: seq<string>, m: Message)
    ensures Replay(ms + [m], queue)
              == match Replay(ms, queue) case None => None case Some(q) => Step(q, m)
  {
    assert (ms + [m])[..|ms|] == ms;
  }

  /** The state a new page starts in keeps send order trivially. */
  lemma InitialInSendOrder(demo: seq<Message>)
    requires |demo| == KeptMessages
    ensures InSendOrder(ChatState(demo, "", []), [])
  {
    assert demo[KeptMessages..] == [];
  }

  /** Every event keeps the replies in send order: a send queues its text,
      a timer answers the oldest queued text, and a new chat turns the
      texts still queued into orphans. */
  lemma EventsKeepSendOrder(s: ChatState, orphans: seq<string>, confirmed: bool)
    requires InSendOrder(s, orphans)
    ensures InSendOrder(SendMessage(s), orphans)
    ensures s.pending != [] ==> InSendOrder(ReplyFires(s), orphans)
    ensures InSendOrder(CreateNewChat(s, confirmed), if confirmed && |s.messages| > KeptMessages then s.pending else orphans)
  {
    SendKeepsSendOrder(s, orphans);
    if s.pending != [] {
      ReplyKeepsSendOrder(s, orphans);
    }
    if confirmed && |s.messages| > KeptMessages {
      assert CreateNewChat(s, confirmed).messages[KeptMessages..] == [];
    }
  }

  lemma SendKeepsSendOrder(s: ChatState, orphans: seq<string>)
    requires InSendOrder(s, orphans)
    ensures InSendOrder(SendMessage(s), orphans)
  {
    if !AllSpace(s.input) {
      var tail := s.messages[KeptMessages..];
      var m := UserMessage(Trim(s.input));
      assert SendMessage(s).messages[KeptMessages..] == tail + [m];
      ReplayAppend(tail, orphans, m);
    }
  }

  lemma ReplyKeepsSendOrder(s: ChatState, orphans: seq<string>)
    requires InSendOrder(s, orphans) && s.pending != []
    ensures InSendOrder(ReplyFires(s), orphans)
  {
    var tail := s.messages[KeptMessages..];
    var m := AiMessage(s.pending[0]);
    assert ReplyFires(s).messages[KeptMessages..] == tail + [m];
    ReplayAppend(tail, orphans, m);
  }

  /** `createNewChat` with the user's answer to its confirmation: when
      confirmed, everything after the first two messages is removed and
      the input is cleared; when declined, nothing changes. Scheduled
      replies are not cancelled. */
  function CreateNewChat(s: ChatState, confirmed: bool): (r: ChatState)
    ensures !confirmed ==> r == s
    ensures confirmed ==> r.input == "" && r.pending == s.pending
    ensures confirmed && |s.messages| <= KeptMessages ==> r.messages == s.messages
    ensures confirmed && |s.messages| > KeptMessages ==>
              |r.messages| == KeptMessages && r.messages == s.messages[..KeptMessages]
  {
    if !confirmed then s
    else s.(messages := if |s.messages| > KeptMessages then s.messages[..KeptMessages] else s.messages, input := "")
  }

  /** A new chat is well formed, keeps the start of the transcript, and a
      second confirmed new chat changes nothing further. */
  lemma NewChatFacts(s: ChatState, confirmed: bool)
    ensures confirmed ==> WellFormed(CreateNewChat(s, confirmed))
    ensures CreateNewChat(s, confirmed).messages <= s.messages
    ensures CreateNewChat(CreateNewChat(s, true), true) == CreateNewChat(s, true)
  {
    if confirmed && |s.messages| > KeptMessages {
      assert CreateNewChat(s, confirmed).messages[KeptMessages..] == [];
    }
  }

  /** A sent message survives a new chat only if it was among the first
      two messages, so the exchanges of this conversation are gone. */
  lemma NewChatDropsExchanges(s: ChatState)
    requires |s.messages| == KeptMessages && !AllSpace(s.input)
    ensures CreateNewChat(SendMessage(s), true).messages == s.messages
  {
    assert SendMessage(s).messages[..KeptMessages] == s.messages;
  }

  // =====================================================================
  // History

  /** `initChatHistory`'s click handler over the items' active flags:
      all cleared, then the clicked one set. */
  function SelectHistoryItem(active: seq<bool>, clicked: nat): (r: seq<bool>)
    requires clicked < |active|
    ensures |r| == |active|
    ensures forall j :: 0 <= j < |r| ==> (r[j] <==> j == clicked)
  {
    seq(|active|, j requires 0 <= j < |active| => j == clicked)
  }

  /** Exactly one item is active afterwards, and clicking it again changes
      nothing. */
  lemma SingleActiveHistoryItem(active: seq<bool>, clicked: nat, j: nat, k: nat)
    requires clicked < |active|
    requires j < |active| && k < |active|
    ensures SelectHistoryItem(active, clicked)[j] && SelectHistoryItem(active, clicked)[k] ==> j == k
    ensures SelectHistoryItem(SelectHistoryItem(active, clicked), clicked) == SelectHistoryItem(active, clicked)
  {
  }
}

=== FILE: chat_panel.dfy ===
/**
 * The Agent Chat page's own sidebar in WWW-en/js/agentchat.js: the
 * history panel that slides over the page on narrow windows. Opening,
 * closing and toggling do nothing unless the panel, its overlay and its
 * toggle button are all on the page. A history click (module Chat) also
 * closes the panel on windows up to 1024 px.
 */
module ChatPanel {
  import Chat

  /** Which of the three elements the page has. */
  datatype Elements = Elements(panel: bool, overlay: bool, toggle: bool)

  predicate AllPresent(e: Elements)
  {
    e.panel && e.overlay && e.toggle
  }

  const DesktopWidth: int := 1024

  datatype Panel = Panel(elements: Elements, open: bool, overlayVisible: bool, ariaExpanded: bool, bodyLocked: bool)

  function InitialPanel(e: Elements): Panel
  {
    Panel(e, false, false, false, false)
  }

  /** The flags move together, and never move without all three elements. */
  predicate Consistent(p: Panel)
  {
    p.overlayVisible == p.open && p.ariaExpanded == p.open && p.bodyLocked == p.open
    && (!AllPresent(p.elements) ==> !p.open)
  }

  /** `openSidebar`. */
  function Open(p: Panel): (r: Panel)
    ensures !AllPresent(p.elements) ==> r == p
    ensures AllPresent(p.elements) ==> r.open && r.overlayVisible && r.ariaExpanded && r.bodyLocked && r.elements == p.elements
  {
    if AllPresent(p.elements) then p.(open := true, overlayVisible := true, ariaExpanded := true, bodyLocked := true)
    else p
  }

  /** `closeSidebar`, also run by the close button and a click on the
      overlay. */
  function Close(p: Panel): (r: Panel)
    ensures !AllPresent(p.elements) ==> r == p
    ensures AllPresent(p.elements) ==> !r.open && !r.overlayVisible && !r.ariaExpanded && !r.bodyLocked && r.elements == p.elements
  {
    if AllPresent(p.elements) then p.(open := false, overlayVisible := false, ariaExpanded := false, bodyLocked := false)
    else p
  }

  /** `toggleSidebar`. */
  function Toggle(p: Panel): (r: Panel)
    ensures AllPresent(p.elements) ==> r.open == !p.open
    ensures !AllPresent(p.elements) ==> r == p
  {
    if AllPresent(p.elements) then (if p.open then Close(p) else Open(p)) else p
  }

  /** The Escape key: closes only a panel that exists and is open. */
  function Escape(p: Panel): (r: Panel)
    ensures !(p.elements.panel && p.open) ==> r == p
    ensures Consistent(p) && p.open ==> !r.open
  {
    if p.elements.panel && p.open then Close(p) else p
  }

  /** `handleResize`: a window wider than 1024 px closes the panel. */
  function Resize(p: Panel, width: int): (r: Panel)
    ensures width <= DesktopWidth ==> r == p
    ensures Consistent(p) && width > DesktopWidth ==> !r.open
  {
    if width > DesktopWidth && p.elements.panel then Close(p) else p
  }

  datatype HistoryClick = HistoryClick(active: seq<bool>, panel: Panel)

  /** A history click in this variant: the clicked item becomes the only
      active one, and on a window up to 1024 px the panel closes. */
  function ClickHistoryItem(active: seq<bool>, clicked: nat, p: Panel, width: int): (r: HistoryClick)
    requires clicked < |active|
    ensures r.active == Chat.SelectHistoryItem(active, clicked)
    ensures width > DesktopWidth ==> r.panel == p
    ensures Consistent(p) && width <= DesktopWidth ==> !r.panel.open
  {
    HistoryClick(Chat.SelectHistoryItem(active, clicked), if width <= DesktopWidth then Close(p) else p)
  }

  /** Every transition keeps the panel consistent; without all three
      elements nothing ever changes. */
  lemma TransitionsKeepConsistent(p: Panel, width: int)
    requires Consistent(p)
    ensures Consistent(Open(p)) && Consistent(Close(p)) && Consistent(Toggle(p))
    ensures Consistent(Escape(p)) && Consistent(Resize(p, width))
    ensures !AllPresent(p.elements) ==>
              Open(p) == p && Close(p) == p && Toggle(p) == p && Escape(p) == p && Resize(p, width) == p
  {
  }

  /** On a page with all three elements, toggling twice restores a
      consistent panel. */
  lemma ToggleTwice(p: Panel)
    requires Consistent(p)
    ensures Toggle(Toggle(p)) == p
  {
  }
}

=== FILE: common.dfy ===
/**
 * Small shared datatypes: an optional value, and the toast/notification
 * kinds the pages use when they report an outcome to the user.
 */
module Common {

  /** A value that may be absent (a missing DOM element, a missing file,
      a lookup that found nothing). */
  datatype Option<+T> = None | Some(value: T)

  /** The `type` argument the pages pass to their toast helpers. */
  datatype NoticeKind = Success | Warning | Info | Error

  /** A toast or notification shown to the user. */
  datatype Notice = Notice(message: string, kind: NoticeKind)
}

=== FILE: dropshipping.dfy ===
/**
 * The Dropshipping hub (WWW-en/js/dropshipping.js): the supplier search
 * count with its two-character minimum, the origin-country filter and its
 * country-name lookup.
 *
 * The results line is modelled by the two values it shows: the count and
 * the quoted query. The origin filter's half-second timer is an event of
 * its own, since its notice reads the filter when it fires.
 */
module Dropshipping {
  import opened Common
  import opened Text
  import opened Seqs

  datatype Supplier = Supplier(name: string, company: string, country: string)

  /** The results line: "Showing <count> suppliers for "<query>"". */
  datatype ResultsLine = ResultsLine(count: nat, query: string)

  /** The label shown when the search is too short to filter. */
  const DefaultQuery: string := "Smart Coffee Maker"

  const MinQueryLength: nat := 2

  /** The supplier list, the origin filter (initially 'qatar') and the
      results line. */
  datatype Hub = Hub(suppliers: seq<Supplier>, currentFilter: string, results: ResultsLine)

  /** The normalised query: trimmed and lower-cased. */
  function Normalise(query: string): string
  {
    ToLower(Trim(query))
  }

  predicate SupplierMatches(s: Supplier, q: string)
  {
    Contains(ToLower(s.name), q) || Contains(ToLower(s.company), q)
  }

  /** `handleSearch`: a normalised query shorter than two characters shows
      every supplier under the default label; a longer one counts the
      suppliers whose name or company contains it, under the query as
      typed. Only the results line changes. */
  function HandleSearch(h: Hub, query: string): (r: Hub)
    ensures r.suppliers == h.suppliers && r.currentFilter == h.currentFilter
    ensures |Normalise(query)| < MinQueryLength ==> r.results == ResultsLine(|h.suppliers|, DefaultQuery)
    ensures |Normalise(query)| >= MinQueryLength ==>
              r.results.query == query
              && r.results.count == |Filter(h.suppliers, (s: Supplier) => SupplierMatches(s, Normalise(query)))|
    ensures r.results.count <= |h.suppliers|
  {
    var q := Normalise(query);
    if |q| < MinQueryLength then h.(results := ResultsLine(|h.suppliers|, DefaultQuery))
    else h.(results := ResultsLine(|Filter(h.suppliers, (s: Supplier) => SupplierMatches(s, q))|, query))
  }

  /** A longer query that contains a shorter one never shows more
      suppliers than the shorter one. */
  lemma NarrowerQueryCountsFewer(h: Hub, short: string, long: string)
    requires |Normalise(short)| >= MinQueryLength
    requires Contains(Normalise(long), Normalise(short))
    ensures |Normalise(long)| >= MinQueryLength
    ensures HandleSearch(h, long).results.count <= HandleSearch(h, short).results.count
  {
    ContainsIff(Normalise(long), Normalise(short));
    var strong := (s: Supplier) => SupplierMatches(s, Normalise(long));
    var weak := (s: Supplier) => SupplierMatches(s, Normalise(short));
    forall s | s in h.suppliers && strong(s) ensures weak(s) {
      if Contains(ToLower(s.name), Normalise(long)) {
        ContainsTransitive(ToLower(s.name), Normalise(long), Normalise(short));
      } else {
        ContainsTransitive(ToLower(s.company), Normalise(long), Normalise(short));
      }
    }
    FilterWeakerKeepsMore(h.suppliers, strong, weak);
  }

  /** Leading blanks and letter case do not change the count, only the
      label. */
  lemma CountIgnoresPaddingAndCase(h: Hub, c: char, query: string)
    requires IsSpace(c)
    ensures HandleSearch(h, [c] + query).results.count == HandleSearch(h, query).results.count
    ensures HandleSearch(h, ToUpper(query)).results.count == HandleSearch(h, query).results.count
  {
    TrimLeadingSpace(c, query);
    TrimOfUpper(query);
    ToLowerOfToUpper(Trim(query));
  }

  /** `getCountryName`: the four known codes get their display names; any
      other code is shown as it is. */
  function CountryName(code: string): (name: string)
    ensures code == "qatar" ==> name == "Qatar"
    ensures code == "china" ==> name == "China"
    ensures code == "uae" ==> name == "UAE"
    ensures code == "turkey" ==> name == "Turkey"
    ensures code !in {"qatar", "china", "uae", "turkey"} ==> name == code
  {
    if code == "qatar" then "Qatar"
    else if code == "china" then "China"
    else if code == "uae" then "UAE"
    else if code == "turkey" then "Turkey"
    else code
  }

  /** A display name is never a code: looking a name up again leaves it
      as it is. */
  lemma CountryNameIdempotent(code: string)
    ensures CountryName(CountryName(code)) == CountryName(code)
  {
    if code in {"qatar", "china", "uae", "turkey"} {
      var n := CountryName(code);
      assert n[0] != code[0] || |n| != |code|;
      assert IsUpper(n[0]);
    }
  }

  /** The origin select's change handler: only the current filter
      changes (the list and the count stay as they are), and a half-second
      timer is started. */
  function ChangeOrigin(h: Hub, value: string): (r: Hub)
    ensures r.currentFilter == value
    ensures r.suppliers == h.suppliers && r.results == h.results
  {
    h.(currentFilter := value)
  }

  const OriginNoticePrefix: string := "Showing suppliers from "

  /** The timer of `filterSuppliers` fires: its info notice names the
      country of the filter as it is now, not as it was when the timer
      started. */
  function OriginSettled(h: Hub): (n: Notice)
    ensures n.kind == Info
    ensures n.message == OriginNoticePrefix + CountryName(h.currentFilter)
  {
    Notice(OriginNoticePrefix + CountryName(h.currentFilter), Info)
  }

  /** When the timer fires before another change, the notice names the
      country just chosen. */
  lemma OriginNoticeNamesChoice(h: Hub, value: string)
    ensures OriginSettled(ChangeOrigin(h, value)) == Notice(OriginNoticePrefix + CountryName(value), Info)
  {
  }

  /** Two changes within half a second: the first change's notice fires
      after the second change and names the second country, so it names
      the first one only when the two share a display name. */
  lemma QuickChangesNameLatest(h: Hub, first: string, second: string)
    ensures OriginSettled(ChangeOrigin(ChangeOrigin(h, first), second)).message
              == OriginNoticePrefix + CountryName(second)
    ensures OriginSettled(ChangeOrigin(ChangeOrigin(h, first), second)).message
              == OriginNoticePrefix + CountryName(first)
            <==> CountryName(first) == CountryName(second)
  {
    var p := OriginNoticePrefix;
    if p + CountryName(second) == p + CountryName(first) {
      assert (p + CountryName(second))[|p|..] == CountryName(second);
      assert (p + CountryName(first))[|p|..] == CountryName(first);
    }
  }

  /** The origin filter never reaches the search: after any origin change
      every query counts the same suppliers as before. */
  lemma SearchIgnoresOrigin(h: Hub, value: string, query: string)
    ensures HandleSearch(ChangeOrigin(h, value), query).results == HandleSearch(h, query).results
  {
  }
}

=== FILE: market_insight.dfy ===
/**
 * The Market Insights table (WWW-en/js/marketinsight.js): category and
 * search filtering, page slicing, the pagination bar, the tri-state
 * select-all box, CSV export and the profit band of a product.
 *
 * The table state is an immutable record; each event handler is a
 * function from the old record to the new one. The debounced search input
 * is modelled by the state after its timer fires.
 */
module MarketInsight {
  import opened Common
  import opened Text
  import opened Seqs

  /** A product row. Prices are kept as the text JavaScript prints for
      them; the profit is the rounded integer percentage. */
  datatype Product = Product(
    id: string, name: string, category: string, origin: string, destination: string,
    buyPriceText: string, sellPriceText: string, profit: int)

  const ItemsPerPage: nat := 10

  /** The only category value that switches category filtering off. */
  const AllCategories: string := "all categories"

  /** The handler state: page, category and query (both stored already
      lower-cased by the handlers that set them). */
  datatype Table = Table(
    products: seq<Product>, currentPage: int, category: string, query: string)

  /** The constructor's state. Its category is 'all', which is NOT the
      'all categories' bypass. */
  function InitialTable(products: seq<Product>): Table
  {
    Table(products, 1, "all", "")
  }

  // =====================================================================
  // Filtering

  predicate InCategory(p: Product, category: string)
  {
    category == AllCategories || ToLower(p.category) == category
  }

  predicate MatchesQuery(p: Product, query: string)
  {
    query == ""
    || Contains(ToLower(p.name), query) || Contains(ToLower(p.id), query)
    || Contains(ToLower(p.origin), query) || Contains(ToLower(p.destination), query)
  }

  /** Whether a product is listed: it is in the category and matches the
      query. */
  predicate Listed(t: Table, p: Product)
  {
    InCategory(p, t.category) && MatchesQuery(p, t.query)
  }

  /** `getFilteredProducts`: a category pass, then a search pass. The two
      passes keep exactly what one pass with both tests keeps, copies
      included. */
  function FilteredProducts(t: Table): (r: seq<Product>)
    ensures r == Filter(t.products, (p: Product) => Listed(t, p))
    ensures |r| <= |t.products|
    ensures IsSubseq(r, t.products)
    ensures forall p :: p in r <==> p in t.products && InCategory(p, t.category) && MatchesQuery(p, t.query)
  {
    var byCategory :=
      if t.category != AllCategories then Filter(t.products, (p: Product) => ToLower(p.category) == t.category)
      else t.products;
    var r :=
      if t.query != "" then
        Filter(byCategory, (p: Product) =>
          Contains(ToLower(p.name), t.query) || Contains(ToLower(p.id), t.query)
          || Contains(ToLower(p.origin), t.query) || Contains(ToLower(p.destination), t.query))
      else byCategory;
    TwoPassesAreOne(t);
    r
  }

  /** The category pass followed by the search pass equals one pass with
      `Listed`. */
  lemma TwoPassesAreOne(t: Table)
    ensures (var byCategory :=
               if t.category != AllCategories then Filter(t.products, (p: Product) => ToLower(p.category) == t.category)
               else t.products;
             var r :=
               if t.query != "" then
                 Filter(byCategory, (p: Product) =>
                   Contains(ToLower(p.name), t.query) || Contains(ToLower(p.id), t.query)
                   || Contains(ToLower(p.origin), t.query) || Contains(ToLower(p.destination), t.query))
               else byCategory;
             r == Filter(t.products, (p: Product) => Listed(t, p)))
  {
    var cat := (p: Product) => ToLower(p.category) == t.category;
    var query := (p: Product) =>
      Contains(ToLower(p.name), t.query) || Contains(ToLower(p.id), t.query)
      || Contains(ToLower(p.origin), t.query) || Contains(ToLower(p.destination), t.query);
    var listed := (p: Product) => Listed(t, p);
    if t.category != AllCategories && t.query != "" {
      FilterFilter(t.products, cat, query, listed);
    } else if t.category != AllCategories {
      FilterSame(t.products, cat, listed);
    } else if t.query != "" {
      FilterSame(t.products, query, listed);
    } else {
      FilterAll(t.products, listed);
    }
  }

  /** With the 'all categories' tab and no query, every product is listed,
      in order. */
  lemma NoFilterKeepsAll(t: Table)
    requires t.category == AllCategories && t.query == ""
    ensures FilteredProducts(t) == t.products
  {
  }

  /** The categories of the page's mock products. */
  const MockCategories: set<string> :=
    {"fashion & apparel", "electronics", "health & wellness", "home & lifestyle"}

  /** As written: before any tab is clicked, filtering keeps only products
      whose category is literally 'all', so none of the mock products. */
  lemma InitialFilterKeepsNothing(products: seq<Product>)
    requires forall p :: p in products ==> p.category in MockCategories
    ensures forall p :: p in FilteredProducts(InitialTable(products)) ==> ToLower(p.category) == "all"
    ensures FilteredProducts(InitialTable(products)) == []
  {
    forall p | p in products ensures ToLower(p.category) != "all" {
      assert |ToLower(p.category)| == |p.category|;
    }
  }

  /** Corrected initial state: the category the 'all categories' tab sets. */
  function CorrectedInitialTable(products: seq<Product>): Table
  {
    Table(products, 1, AllCategories, "")
  }

  lemma CorrectedInitialKeepsAll(products: seq<Product>)
    ensures FilteredProducts(CorrectedInitialTable(products)) == products
    ensures CorrectedInitialTable(products) == ChangeCategory(InitialTable(products), "All Categories")
  {
    assert ToLower("All Categories") == AllCategories;
  }

  // =====================================================================
  // Handlers that change the query, the category or the page

  /** The search input (after its 300 ms debounce) and the search button:
      the query is stored lower-cased, not trimmed, and the page resets. */
  function Search(t: Table, input: string): (r: Table)
    ensures r.currentPage == 1 && r.query == ToLower(input)
    ensures r.(query := t.query, currentPage := t.currentPage) == t
  {
    t.(query := ToLower(input), currentPage := 1)
  }

  /** `handleCategoryChange`: the tab's text, lower-cased, becomes the
      category, and the page resets. */
  function ChangeCategory(t: Table, tabText: string): (r: Table)
    ensures r.currentPage == 1 && r.category == ToLower(tabText)
    ensures r.(category := t.category, currentPage := t.currentPage) == t
  {
    t.(category := ToLower(tabText), currentPage := 1)
  }

  /** `Math.ceil(n / itemsPerPage)`. */
  function TotalPages(n: nat): (r: nat)
    ensures r * ItemsPerPage >= n
    ensures r > 0 ==> (r - 1) * ItemsPerPage < n
    ensures r == 0 <==> n == 0
  {
    (n + ItemsPerPage - 1) / ItemsPerPage
  }

  function PageCount(t: Table): nat
  {
    TotalPages(|FilteredProducts(t)|)
  }

  /** The next button: advances only while a later page exists. */
  function NextPage(t: Table): (r: Table)
    ensures r.currentPage == (if t.currentPage < PageCount(t) then t.currentPage + 1 else t.currentPage)
    ensures r.(currentPage := t.currentPage) == t
  {
    if t.currentPage < PageCount(t) then t.(currentPage := t.currentPage + 1) else t
  }

  /** The previous button: goes back only from page 2 on. */
  function PrevPage(t: Table): (r: Table)
    ensures r.currentPage == (if t.currentPage > 1 then t.currentPage - 1 else t.currentPage)
    ensures r.(currentPage := t.currentPage) == t
  {
    if t.currentPage > 1 then t.(currentPage := t.currentPage - 1) else t
  }

  /** The page select: the chosen option's number becomes the page. */
  function SelectPage(t: Table, page: int): (r: Table)
    ensures r.currentPage == page && r.(currentPage := t.currentPage) == t
  {
    t.(currentPage := page)
  }

  /** A page the pagination bar can offer: page 1, or a page up to the
      last one. */
  predicate ValidPage(t: Table)
  {
    1 <= t.currentPage && (t.currentPage == 1 || t.currentPage <= PageCount(t))
  }

  /** Every handler keeps the page valid. */
  lemma HandlersKeepPageValid(t: Table, input: string, page: int)
    requires ValidPage(t)
    ensures ValidPage(Search(t, input)) && ValidPage(ChangeCategory(t, input))
    ensures ValidPage(NextPage(t)) && ValidPage(PrevPage(t))
    ensures 1 <= page <= PageCount(t) ==> ValidPage(SelectPage(t, page))
  {
    assert FilteredProducts(NextPage(t)) == FilteredProducts(t);
    assert FilteredProducts(PrevPage(t)) == FilteredProducts(t);
    assert FilteredProducts(SelectPage(t, page)) == FilteredProducts(t);
  }

  // =====================================================================
  // Rendering and the pagination bar

  /** `filtered.slice(start, start + itemsPerPage)` for the current page. */
  function PageRows(t: Table): seq<Product>
  {
    var start := (t.currentPage - 1) * ItemsPerPage;
    Slice(FilteredProducts(t), start, start + ItemsPerPage)
  }

  /** Page p shows the filtered items from index (p-1)*10, at most ten. */
  lemma PageRowsFacts(t: Table)
    requires t.currentPage >= 1
    ensures |PageRows(t)| <= ItemsPerPage
    ensures forall i :: 0 <= i < |PageRows(t)| ==>
              PageRows(t)[i] == FilteredProducts(t)[(t.currentPage - 1) * ItemsPerPage + i]
    ensures |PageRows(t)| == 0 <==> (t.currentPage - 1) * ItemsPerPage >= |FilteredProducts(t)|
  {
    var start := (t.currentPage - 1) * ItemsPerPage;
    SliceFacts(FilteredProducts(t), start, start + ItemsPerPage);
  }

  datatype PageOption = PageOption(number: nat, selected: bool)

  datatype Pagination = Pagination(
    start: int, end: int, total: nat, options: seq<PageOption>, prevDisabled: bool, nextDisabled: bool)

  function Min(a: int, b: int): int { if a < b then a else b }

  /** `updatePagination`. */
  function UpdatePagination(t: Table): (r: Pagination)
    ensures r.total == |FilteredProducts(t)|
    ensures r.start == (t.currentPage - 1) * ItemsPerPage + 1
    ensures r.end == Min(t.currentPage * ItemsPerPage, r.total)
    ensures |r.options| == PageCount(t)
    ensures forall i :: 0 <= i < |r.options| ==>
              r.options[i].number == i + 1 && (r.options[i].selected <==> i + 1 == t.currentPage)
    ensures r.prevDisabled <==> t.currentPage == 1
    ensures r.nextDisabled <==> t.currentPage == PageCount(t)
  {
    var n := |FilteredProducts(t)|;
    var pages := TotalPages(n);
    Pagination(
      (t.currentPage - 1) * ItemsPerPage + 1,
      Min(t.currentPage * ItemsPerPage, n),
      n,
      seq(pages, i requires 0 <= i < pages => PageOption(i + 1, i + 1 == t.currentPage)),
      t.currentPage == 1,
      t.currentPage == pages)
  }

  /** What `renderTable` puts in the table body: the empty-state row (and
      nothing else is updated), or the page's rows and a fresh bar. */
  datatype Rendered = EmptyState | Rows(rows: seq<Product>, bar: Pagination)

  function RenderTable(t: Table): (r: Rendered)
    ensures r.EmptyState? <==> PageRows(t) == []
    ensures r.Rows? ==> r.rows == PageRows(t) && r.bar == UpdatePagination(t)
  {
    var rows := PageRows(t);
    if |rows| == 0 then EmptyState else Rows(rows, UpdatePagination(t))
  }

  /** The "start - end of n" text matches the rows the page shows. */
  lemma PageInfoMatchesRows(t: Table)
    requires 1 <= t.currentPage <= PageCount(t)
    ensures var bar := UpdatePagination(t);
            1 <= bar.start <= bar.end <= bar.total
            && |PageRows(t)| == bar.end - bar.start + 1
            && PageRows(t) == FilteredProducts(t)[bar.start - 1..bar.end]
  {
    var f := FilteredProducts(t);
    var start := (t.currentPage - 1) * ItemsPerPage;
    PageRowsFacts(t);
    SliceFacts(f, start, start + ItemsPerPage);
  }

  /** A button is disabled exactly when clicking it would do nothing. */
  lemma ButtonsDisabledIffNoop(t: Table)
    requires 1 <= t.currentPage <= PageCount(t)
    ensures UpdatePagination(t).nextDisabled <==> NextPage(t) == t
    ensures UpdatePagination(t).prevDisabled <==> PrevPage(t) == t
  {
    if NextPage(t) == t {
      assert NextPage(t).currentPage == t.currentPage;
    }
    if PrevPage(t) == t {
      assert PrevPage(t).currentPage == t.currentPage;
    }
  }

  /** Next from any valid page until the bar disables it visits each page
      once: from page p it reaches p + 1 exactly while p is not the last. */
  lemma NextStopsAtLastPage(t: Table)
    requires 1 <= t.currentPage <= PageCount(t)
    ensures t.currentPage == PageCount(t) ==> NextPage(NextPage(t)) == t
    ensures t.currentPage < PageCount(t) ==> PrevPage(NextPage(t)) == t
  {
    assert FilteredProducts(NextPage(t)) == FilteredProducts(t);
  }

  // =====================================================================
  // Row selection

  function CountChecked(cs: seq<bool>): (k: nat)
    ensures k <= |cs|
    decreases |cs|
  {
    if |cs| == 0 then 0 else (if cs[0] then 1 else 0) + CountChecked(cs[1..])
  }

  lemma {:induction false} CountCheckedFacts(cs: seq<bool>)
    ensures CountChecked(cs) == |cs| <==> forall i :: 0 <= i < |cs| ==> cs[i]
    ensures CountChecked(cs) > 0 <==> exists i :: 0 <= i < |cs| && cs[i]
    decreases |cs|
  {
    if |cs| > 0 {
      CountCheckedFacts(cs[1..]);
      assert forall i :: 1 <= i < |cs| ==> cs[i] == cs[1..][i - 1];
      if exists i :: 0 <= i < |cs[1..]| && cs[1..][i] {
        var i :| 0 <= i < |cs[1..]| && cs[1..][i];
        assert cs[i + 1];
      }
    }
  }

  datatype SelectAllBox = SelectAllBox(checked: bool, indeterminate: bool)

  /** `updateSelectAllCheckbox` over the row checkboxes' states. */
  function UpdateSelectAll(cs: seq<bool>): (r: SelectAllBox)
    ensures r.checked <==> |cs| > 0 && forall i :: 0 <= i < |cs| ==> cs[i]
    ensures r.indeterminate <==> (exists i :: 0 <= i < |cs| && cs[i]) && (exists i :: 0 <= i < |cs| && !cs[i])
    ensures !(r.checked && r.indeterminate)
  {
    var k := CountChecked(cs);
    CountCheckedFacts(cs);
    SelectAllBox(k == |cs| && |cs| > 0, k > 0 && k < |cs|)
  }

  /** The row checkboxes of the rendered page, and the row indices the
      page remembers as selected. */
  datatype RowSelection = RowSelection(checks: seq<bool>, selected: set<int>)

  /** The selected set agrees with the checkboxes. The checkbox handlers
      keep this, but a re-render does not: see RerenderBreaksSelection. */
  predicate Consistent(s: RowSelection)
  {
    forall i :: 0 <= i < |s.checks| ==> (i in s.selected <==> s.checks[i])
  }

  /** The indices 0 .. n-1. */
  function IndexSet(n: nat): (r: set<int>)
    ensures forall i :: i in r <==> 0 <= i < n
  {
    if n == 0 then {} else IndexSet(n - 1) + {n - 1}
  }

  /** `handleSelectAll`: every row box takes the select-all value, and
      every row index is added to, or removed from, the selection. */
  function HandleSelectAll(s: RowSelection, checked: bool): (r: RowSelection)
    ensures |r.checks| == |s.checks| && forall i :: 0 <= i < |r.checks| ==> r.checks[i] == checked
    ensures Consistent(r)
    ensures forall i :: i < 0 || i >= |s.checks| ==> (i in r.selected <==> i in s.selected)
  {
    var n := |s.checks|;
    var rows := IndexSet(n);
    RowSelection(seq(n, i requires 0 <= i < n => checked), if checked then s.selected + rows else s.selected - rows)
  }

  /** A row checkbox change. */
  function ToggleRow(s: RowSelection, i: nat, checked: bool): (r: RowSelection)
    requires i < |s.checks|
    ensures r.checks == s.checks[i := checked]
    ensures i in r.selected <==> checked
    ensures forall j :: j != i ==> (j in r.selected <==> j in s.selected)
    ensures Consistent(s) ==> Consistent(r)
  {
    RowSelection(s.checks[i := checked], if checked then s.selected + {i} else s.selected - {i})
  }

  /** After select-all the box reads checked (for a non-empty page); after
      clearing it reads neither checked nor indeterminate. */
  lemma SelectAllThenBox(s: RowSelection)
    ensures |s.checks| > 0 ==> UpdateSelectAll(HandleSelectAll(s, true).checks) == SelectAllBox(true, false)
    ensures UpdateSelectAll(HandleSelectAll(s, false).checks) == SelectAllBox(false, false)
  {
  }

  /** What a re-render does to the selection: the table body is rebuilt
      with one fresh, unticked box per row of the new page (none for the
      empty state), while the remembered selection is left as it was. The
      select-all box is not touched either. */
  function Rerender(s: RowSelection, t: Table): (r: RowSelection)
    ensures |r.checks| == |PageRows(t)|
    ensures RenderTable(t).EmptyState? ==> r.checks == []
    ensures forall i :: 0 <= i < |r.checks| ==> !r.checks[i]
    ensures r.selected == s.selected
  {
    RowSelection(seq(|PageRows(t)|, i requires 0 <= i < |PageRows(t)| => false), s.selected)
  }

  /** Select all, then move to any non-empty page: the selection still
      holds index 0 but the new box 0 is unticked, so the selection no
      longer agrees with the boxes; and the select-all box, which still
      reads checked, no longer matches what the new boxes would give. */
  lemma RerenderBreaksSelection(s: RowSelection, t: Table)
    requires |s.checks| > 0 && PageRows(t) != []
    ensures var a := HandleSelectAll(s, true);
            var r := Rerender(a, t);
            Consistent(a) && UpdateSelectAll(a.checks).checked
            && 0 in r.selected && !r.checks[0]
            && !Consistent(r) && !UpdateSelectAll(r.checks).checked
  {
  }

  // =====================================================================
  // CSV export

  const CsvHeader: seq<string> := ["ID", "Product", "Origin", "Destination", "Buy Price", "Sell Price", "Profit %"]

  function CsvFields(p: Product): seq<string>
  {
    [p.id, p.name, p.origin, p.destination, p.buyPriceText, p.sellPriceText, IntToString(p.profit)]
  }

  function CsvLines(ps: seq<Product>): (lines: seq<string>)
    ensures |lines| == |ps| + 1
  {
    [Join(CsvHeader, ',')] + seq(|ps|, i requires 0 <= i < |ps| => Join(CsvFields(ps[i]), ','))
  }

  /** `convertToCSV`: header line, then one line per product; fields joined
      by ',' and lines by '\n', nothing quoted or escaped. */
  function ConvertToCsv(ps: seq<Product>): string
  {
    Join(CsvLines(ps), '\n')
  }

  /** A field that needs no quoting: no comma, no line break. */
  predicate PlainField(x: string)
  {
    ',' !in x && '\n' !in x
  }

  predicate PlainProduct(p: Product)
  {
    forall k :: 0 <= k < |CsvFields(p)| ==> PlainField(CsvFields(p)[k])
  }

  lemma JoinKeepsOut(xs: seq<string>, sep: char, c: char)
    requires c != sep && forall k :: 0 <= k < |xs| ==> c !in xs[k]
    ensures c !in Join(xs, sep)
    decreases |xs|
  {
    if |xs| > 1 {
      JoinKeepsOut(xs[1..], sep, c);
    }
  }

  lemma IntToStringPlain(i: int)
    ensures PlainField(IntToString(i))
  {
  }

  /** No line of the export contains a line break. */
  lemma CsvLinesSingle(ps: seq<Product>)
    requires forall i :: 0 <= i < |ps| ==> PlainProduct(ps[i])
    ensures forall k :: 0 <= k < |CsvLines(ps)| ==> '\n' !in CsvLines(ps)[k]
  {
    var lines := CsvLines(ps);
    forall k | 0 <= k < |lines| ensures '\n' !in lines[k] {
      if k == 0 {
        HeaderLineSingle();
      } else {
        RowLineSingle(ps[k - 1]);
      }
    }
  }

  lemma HeaderLineSingle()
    ensures '\n' !in Join(CsvHeader, ',')
  {
    assert forall k :: 0 <= k < |CsvHeader| ==> '\n' !in CsvHeader[k];
    JoinKeepsOut(CsvHeader, ',', '\n');
  }

  lemma RowLineSingle(p: Product)
    requires PlainProduct(p)
    ensures '\n' !in Join(CsvFields(p), ',')
  {
    JoinKeepsOut(CsvFields(p), ',', '\n');
  }

  /** A product whose six text fields are plain is plain: the profit
      number never holds a comma or a line break. */
  lemma PlainFromText(p: Product)
    requires forall k :: 0 <= k < 6 ==> PlainField(CsvFields(p)[k])
    ensures PlainProduct(p)
  {
    IntToStringPlain(p.profit);
  }

  /** One plain product's line splits back into its seven fields. */
  lemma CsvRowRoundTrip(p: Product)
    requires PlainProduct(p)
    ensures Split(Join(CsvFields(p), ','), ',') == CsvFields(p)
  {
    SplitJoin(CsvFields(p), ',');
  }

  /** The header line splits back into the seven column names. */
  lemma CsvHeaderRoundTrip()
    ensures Split(Join(CsvHeader, ','), ',') == CsvHeader
  {
    assert forall k :: 0 <= k < |CsvHeader| ==> ',' !in CsvHeader[k];
    SplitJoin(CsvHeader, ',');
  }

  /** Splitting the export on line breaks gives back its n + 1 lines. */
  lemma CsvSplitLines(ps: seq<Product>)
    requires forall i :: 0 <= i < |ps| ==> PlainProduct(ps[i])
    ensures Split(ConvertToCsv(ps), '\n') == CsvLines(ps)
  {
    CsvLinesSingle(ps);
    SplitJoin(CsvLines(ps), '\n');
  }

  /** With plain fields, splitting the export on line breaks gives n + 1
      lines, and splitting each line on commas gives back the header and
      the seven fields of each product in order. */
  lemma CsvRoundTrip(ps: seq<Product>)
    requires forall i :: 0 <= i < |ps| ==>
               forall k :: 0 <= k < 6 ==> PlainField(CsvFields(ps[i])[k])
    ensures |Split(ConvertToCsv(ps), '\n')| == |ps| + 1
    ensures Split(Split(ConvertToCsv(ps), '\n')[0], ',') == CsvHeader
    ensures forall i :: 0 <= i < |ps| ==> Split(Split(ConvertToCsv(ps), '\n')[i + 1], ',') == CsvFields(ps[i])
  {
    var lines := CsvLines(ps);
    forall i | 0 <= i < |ps| ensures PlainProduct(ps[i]) {
      PlainFromText(ps[i]);
    }
    CsvSplitLines(ps);
    CsvHeaderRoundTrip();
    forall i | 0 <= i < |ps| ensures Split(lines[i + 1], ',') == CsvFields(ps[i]) {
      assert lines[i + 1] == Join(CsvFields(ps[i]), ',');
      CsvRowRoundTrip(ps[i]);
    }
  }

  /** Because nothing is quoted, a name holding one comma splits into two
      columns: the row reads back as eight fields, with the name's two
      halves in the second and third. */
  lemma CommaInNameAddsColumn(p: Product, a: string, b: string)
    requires p.name == a + [','] + b && ',' !in a && ',' !in b
    requires forall k :: 0 <= k < 7 && k != 1 ==> PlainField(CsvFields(p)[k])
    ensures Split(Join(CsvFields(p), ','), ',')
              == [p.id, a, b, p.origin, p.destination, p.buyPriceText, p.sellPriceText, IntToString(p.profit)]
  {
    var parts := [p.id, a, b, p.origin, p.destination, p.buyPriceText, p.sellPriceText, IntToString(p.profit)];
    IntToStringPlain(p.profit);
    assert Join(CsvFields(p), ',') == Join(parts, ',') by {
      assert Join(CsvFields(p)[1..], ',') == Join(parts[1..], ',') by {
        var rest := Join(parts[1..][2..], ',');
        assert CsvFields(p)[1..][1..] == parts[1..][2..];
        assert a + [','] + b + [','] + rest == a + [','] + (b + [','] + rest);
      }
    }
    SplitJoin(parts, ',');
  }

  // =====================================================================
  // Profit band

  datatype ProfitBand = Low | Medium | High

  /** The `profitLevel` of a generated product, from its integer profit. */
  function ProfitBandOf(profit: int): (b: ProfitBand)
    ensures b == High <==> profit > 100
    ensures b == Medium <==> 50 < profit <= 100
    ensures b == Low <==> profit <= 50
  {
    if profit > 100 then High else if profit > 50 then Medium else Low
  }

  function BandRank(b: ProfitBand): nat
  {
    match b
    case Low => 0
    case Medium => 1
    case High => 2
  }

  /** A larger profit never gets a lower band. */
  lemma ProfitBandMonotone(p: int, q: int)
    requires p <= q
    ensures BandRank(ProfitBandOf(p)) <= BandRank(ProfitBandOf(q))
  {
  }
}

=== FILE: marketing.dfy ===
/**
 * The Marketing hub (WWW/js/marketing.js): the target-market lookup, the
 * AI content studio's show/hide toggle, the prompt guard and caption
 * template of the content generator, the export-format rule and the
 * notification colours.
 *
 * Elements the handlers look up may be missing from the page; they are
 * `Option`s here. The generator's two-second delay is modelled by its end
 * state.
 */
module Marketing {
  import opened Common
  import opened Text
  import SettingsWww
  import Dropshipping

  /** `getMarketName`: the four known values get their full names; any
      other value is shown as it is. */
  function MarketName(value: string): (name: string)
    ensures value == "uae" ==> name == "United Arab Emirates"
    ensures value == "qatar" ==> name == "Qatar"
    ensures value == "saudi" ==> name == "Saudi Arabia"
    ensures value == "egypt" ==> name == "Egypt"
    ensures value !in {"uae", "qatar", "saudi", "egypt"} ==> name == value
  {
    if value == "uae" then "United Arab Emirates"
    else if value == "qatar" then "Qatar"
    else if value == "saudi" then "Saudi Arabia"
    else if value == "egypt" then "Egypt"
    else value
  }

  /** The market lookup here and the country lookup of the Dropshipping
      hub are different tables: they agree only on "qatar" and on values
      neither of them knows. */
  lemma LookupsAgreeIff(value: string)
    ensures MarketName(value) == Dropshipping.CountryName(value)
            <==> value !in {"uae", "saudi", "egypt", "china", "turkey"}
  {
    var m := MarketName(value);
    var c := Dropshipping.CountryName(value);
    if value == "uae" {
      assert |m| != |c|;
    } else if value == "saudi" || value == "egypt" {
      assert m[0] != c[0];
    } else if value == "china" || value == "turkey" {
      assert m[0] != c[0];
    }
  }

  /** A full name is never a select value: looking it up again leaves it
      as it is. */
  lemma MarketNameIdempotent(value: string)
    ensures MarketName(MarketName(value)) == MarketName(value)
  {
    if value in {"uae", "qatar", "saudi", "egypt"} {
      assert IsUpper(MarketName(value)[0]);
    }
  }

  /** `updatePlatformContent`'s notice for a target-market change. */
  function MarketChangeNotice(market: string): (n: Notice)
    ensures n.kind == Info
    ensures n.message == "Updated recommendations for " + MarketName(market)
  {
    Notice("Updated recommendations for " + MarketName(market), Info)
  }

  /** `toggleAIStudio` on the studio's inline display value; nothing
      happens without a studio. */
  function ToggleStudio(display: Option<string>): (r: Option<string>)
    ensures display.None? ==> r.None?
    ensures display == Some("none") ==> r == Some("block")
    ensures display.Some? && display.value != "none" ==> r == Some("none")
  {
    match display
    case None => None
    case Some(d) => Some(if d == "none" then "block" else "none")
  }

  /** Toggling twice restores a shown or hidden studio; a studio with no
      inline display yet is hidden by the first toggle and shown as
      'block' by the second. */
  lemma ToggleStudioTwice(d: string)
    ensures d == "none" || d == "block" ==> ToggleStudio(ToggleStudio(Some(d))) == Some(d)
    ensures ToggleStudio(Some("")) == Some("none")
    ensures ToggleStudio(ToggleStudio(Some(""))) == Some("block")
  {
  }

  // =====================================================================
  // The content generator

  const CaptionPrefix: string := "✨ "

  const CaptionSuffix: string :=
    "\n\nDiscover amazing products and deals! \U{1F6CD}\U{FE0F}\nShop now and transform your lifestyle! \U{1F4AB}\n\n#Shopping #Deals #MiddleEast"

  /** `updateInstagramPost`'s caption for a prompt. */
  function Caption(prompt: string): (c: string)
    ensures |c| == |CaptionPrefix| + |prompt| + |CaptionSuffix|
    ensures StartsWith(c, CaptionPrefix)
  {
    CaptionPrefix + prompt + CaptionSuffix
  }

  /** Reads the prompt back out of a generated caption. */
  function PromptOfCaption(c: string): Option<string>
  {
    if |c| >= |CaptionPrefix| + |CaptionSuffix|
       && c[..|CaptionPrefix|] == CaptionPrefix && c[|c| - |CaptionSuffix|..] == CaptionSuffix
    then Some(c[|CaptionPrefix|..|c| - |CaptionSuffix|])
    else None
  }

  /** The caption keeps the prompt recoverable, so different prompts give
      different captions. */
  lemma CaptionRoundTrip(prompt: string, other: string)
    ensures PromptOfCaption(Caption(prompt)) == Some(prompt)
    ensures Caption(prompt) == Caption(other) ==> prompt == other
  {
    var c := Caption(prompt);
    assert c[..|CaptionPrefix|] == CaptionPrefix;
    assert c[|c| - |CaptionSuffix|..] == CaptionSuffix;
    assert c[|CaptionPrefix|..|c| - |CaptionSuffix|] == prompt;
    var d := Caption(other);
    assert d[..|CaptionPrefix|] == CaptionPrefix;
    assert d[|d| - |CaptionSuffix|..] == CaptionSuffix;
    assert d[|CaptionPrefix|..|d| - |CaptionSuffix|] == other;
  }

  /** The parts of the page the generator touches: the prompt input, the
      generate button, and the post caption, each possibly missing. */
  datatype Studio = Studio(input: Option<string>, hasButton: bool, caption: Option<string>)

  datatype Generation = Generation(studio: Studio, notice: Option<Notice>)

  /** `generateContent` once its delay has passed. */
  function GenerateContent(s: Studio): (r: Generation)
    ensures s.input.None? || !s.hasButton ==> r == Generation(s, None)
    ensures s.input.Some? && s.hasButton && AllSpace(s.input.value) ==>
              r == Generation(s, Some(Notice("Please enter a message to generate content", Warning)))
    ensures s.input.Some? && s.hasButton && !AllSpace(s.input.value) ==>
              r.studio.input == Some("")
              && r.studio.hasButton
              && (s.caption.None? <==> r.studio.caption.None?)
              && (s.caption.Some? ==> PromptOfCaption(r.studio.caption.value) == Some(Trim(s.input.value)))
              && r.notice == Some(Notice("New content generated successfully!", Info))
  {
    if s.input.None? || !s.hasButton then Generation(s, None)
    else
      var prompt := Trim(s.input.value);
      TrimEmptyIff(s.input.value);
      if prompt == "" then Generation(s, Some(Notice("Please enter a message to generate content", Warning)))
      else
        CaptionRoundTrip(prompt, prompt);
        Generation(
          Studio(Some(""), true, if s.caption.Some? then Some(Caption(prompt)) else None),
          Some(Notice("New content generated successfully!", Info)))
  }

  /** A second click on the cleared input only warns and changes
      nothing. */
  lemma GenerateThenRegenerate(s: Studio)
    requires s.input.Some? && s.hasButton && !AllSpace(s.input.value)
    ensures GenerateContent(GenerateContent(s).studio).notice.value.kind == Warning
    ensures GenerateContent(GenerateContent(s).studio).studio == GenerateContent(s).studio
  {
  }

  // =====================================================================
  // Export and notifications

  /** The export buttons' rule: 'Excel' when the button's text contains
      'Excel' (case-sensitively), 'PDF' for anything else. */
  function ExportFormat(buttonText: string): (f: string)
    ensures f == "Excel" <==> Contains(buttonText, "Excel")
    ensures f == "PDF" <==> !Contains(buttonText, "Excel")
  {
    if Contains(buttonText, "Excel") then "Excel" else "PDF"
  }

  /** Every label that mentions Excel anywhere exports Excel. */
  lemma ExcelAnywhere(before: string, after: string)
    ensures ExportFormat(before + "Excel" + after) == "Excel"
  {
    var t := before + "Excel" + after;
    assert t[|before|..|before| + 5] == "Excel";
    ContainsInfix(t, |before|, "Excel");
  }

  /** The two notices of `exportData`: at once, and after its delay. */
  function ExportNotices(buttonText: string): (ns: seq<Notice>)
    ensures |ns| == 2
    ensures ns[0] == Notice("Exporting data as " + ExportFormat(buttonText) + "...", Info)
    ensures ns[1] == Notice(ExportFormat(buttonText) + " file downloaded successfully!", Success)
  {
    var f := ExportFormat(buttonText);
    [Notice("Exporting data as " + f + "...", Info), Notice(f + " file downloaded successfully!", Success)]
  }

  /** `showNotification` colours: green for success, orange for warning,
      purple for anything else, errors included. */
  function NotificationColour(kind: string): (c: string)
    ensures kind == "success" ==> c == "#04910C"
    ensures kind == "warning" ==> c == "#FFA500"
    ensures kind != "success" && kind != "warning" ==> c == "#8237E8"
  {
    if kind == "success" then "#04910C"
    else if kind == "warning" then "#FFA500"
    else "#8237E8"
  }

  /** This page and the Settings page agree on every notification colour
      except errors, which only the Settings page shows in red. */
  lemma ColoursAgreeExceptError(kind: string)
    ensures kind != "error" ==> NotificationColour(kind) == SettingsWww.NotificationColour(kind)
    ensures NotificationColour("error") == "#8237E8" && SettingsWww.NotificationColour("error") == "#ED544E"
  {
  }
}

=== FILE: router.dfy ===
/**
 * The hash router of the application shell, in its two variants:
 * WWW-en/js/app.js (variant `En`) and js/app.js (variant `Root`). Both
 * read the route key from `location.hash`, look it up in a seven-entry
 * route table with a dashboard fallback, show the fetched fragment, set
 * the title and mark the matching sidebar link. Only `En` also swaps in a
 * per-page script and closes the sidebar after a link click on a narrow
 * window.
 *
 * The fetch of the route's fragment is an input: the response for the
 * resolved URL, already parsed into its body and its <title> text.
 */
module Router {
  import opened Common
  import opened Text
  import Sidebar

  datatype Variant = En | Root

  /** Where each variant's fragments live. */
  function HtmlDir(v: Variant): string
  {
    match v
    case En => "./html/"
    case Root => "../html/"
  }

  const DefaultKey: string := "dashboard"

  /** The route table: each key names the fragment file `<page>.html`,
      where the page is the key itself except for chat. */
  function Routes(v: Variant): map<string, string>
  {
    var d := HtmlDir(v);
    map[
      "dashboard" := d + "dashboard.html",
      "chat" := d + "agentchat.html",
      "marketinsight" := d + "marketinsight.html",
      "reports" := d + "reports.html",
      "dropshipping" := d + "dropshipping.html",
      "marketing" := d + "marketing.html",
      "settings" := d + "settings.html"]
  }

  /** `location.hash.replace("#", "") || "dashboard"`: the first '#' is
      removed wherever it is, and an empty key becomes the dashboard. */
  function RouteKey(hash: string): (key: string)
    ensures key != ""
    ensures ReplaceFirst(hash, "#", "") == "" ==> key == DefaultKey
    ensures ReplaceFirst(hash, "#", "") != "" ==> key == ReplaceFirst(hash, "#", "")
  {
    var k := ReplaceFirst(hash, "#", "");
    if k == "" then DefaultKey else k
  }

  /** For the hashes a browser reports, "" or '#' followed by the
      fragment, the key is the fragment, or the dashboard when empty. */
  lemma RouteKeyOfFragment(fragment: string)
    ensures RouteKey("#" + fragment) == (if fragment == "" then DefaultKey else fragment)
    ensures RouteKey("") == DefaultKey
  {
    RemovePrefixedPattern("#", fragment);
  }

  /** `routes[key] || routes["dashboard"]`. */
  function ResolveUrl(v: Variant, key: string): (url: string)
    ensures StartsWith(url, HtmlDir(v))
    ensures key in Routes(v) ==> url == Routes(v)[key]
    ensures key !in Routes(v) ==> url == HtmlDir(v) + "dashboard.html"
  {
    if key in Routes(v) then Routes(v)[key] else Routes(v)[DefaultKey]
  }

  /** Distinct keys of the table lead to distinct fragments, so the
      dashboard fragment is reached exactly from the dashboard key and from
      keys outside the table. */
  lemma DashboardFallbackIff(v: Variant, key: string)
    ensures ResolveUrl(v, key) == HtmlDir(v) + "dashboard.html" <==> key == DefaultKey || key !in Routes(v)
  {
    var d := HtmlDir(v);
    if key in Routes(v) && key != DefaultKey {
      var u := Routes(v)[key];
      assert u[|d|..] != "dashboard.html";
      assert (d + "dashboard.html")[|d|..] == "dashboard.html";
    }
  }

  /** The two variants resolve every key to the same fragment; only the
      directory differs. */
  lemma VariantsAgreeOnFragment(key: string)
    ensures ResolveUrl(Root, key) == "." + ResolveUrl(En, key)
  {
  }

  /** `capitalize(key)` stands in when the fragment has no usable title
      (none, or an empty one). */
  function PageTitle(fragmentTitle: Option<string>, key: string): (t: string)
    ensures fragmentTitle.Some? && fragmentTitle.value != "" ==> t == fragmentTitle.value
    ensures fragmentTitle.None? || fragmentTitle.value == "" ==> t == Capitalize(key)
  {
    if fragmentTitle.Some? && fragmentTitle.value != "" then fragmentTitle.value else Capitalize(key)
  }

  /** The document title's prefix: an en dash in one variant, an em dash
      in the other. */
  function TitlePrefix(v: Variant): string
  {
    match v
    case En => "Raita AI – "
    case Root => "Raita AI — "
  }

  /** Where the page scripts live. */
  const ScriptDir: string := "./js/"

  /** The page script map of `loadPageScripts` (variant En only). */
  function ScriptFor(key: string): (src: Option<string>)
    ensures src.Some? <==> key in {"chat", "dropshipping", "marketing", "reports", "settings"}
  {
    if key == "chat" then Some(ScriptDir + "agentchat.js")
    else if key == "dropshipping" then Some(ScriptDir + "dropshipping.js")
    else if key == "marketing" then Some(ScriptDir + "marketing.js")
    else if key == "reports" then Some(ScriptDir + "reports.js")
    else if key == "settings" then Some(ScriptDir + "settings.js")
    else None
  }

  /** The fragment and script base name of a page: the key itself,
      except that the chat page's files are named agentchat. */
  function PageName(key: string): string
  {
    if key == "chat" then "agentchat" else key
  }

  /** Every route names its page's fragment. */
  lemma RouteNamesPage(v: Variant, key: string)
    requires key in Routes(v)
    ensures Routes(v)[key] == HtmlDir(v) + PageName(key) + ".html"
  {
    var d := HtmlDir(v);
    if key == "chat" {
      AppendFile(d, "agentchat", "agentchat.html");
    } else if key == "dashboard" {
      AppendFile(d, key, "dashboard.html");
    } else if key == "marketinsight" {
      AppendFile(d, key, "marketinsight.html");
    } else if key == "reports" {
      AppendFile(d, key, "reports.html");
    } else if key == "dropshipping" {
      AppendFile(d, key, "dropshipping.html");
    } else if key == "marketing" {
      AppendFile(d, key, "marketing.html");
    } else {
      AppendFile(d, key, "settings.html");
    }
  }

  /** Naming a file by its base name and ".html". */
  lemma AppendFile(dir: string, name: string, file: string)
    requires name + ".html" == file
    ensures dir + name + ".html" == dir + file
  {
  }

  /** Every page that gets a script is a route, and its script is named
      like its fragment; the dashboard and the market insights page get
      none. */
  lemma ScriptMatchesFragment(key: string)
    ensures ScriptFor(key).Some? ==>
              key in Routes(En) && ScriptFor(key).value == ScriptDir + PageName(key) + ".js"
    ensures ScriptFor("dashboard").None? && ScriptFor("marketinsight").None?
  {
    ScriptedPagesAreRoutes(key);
    ScriptNamedLikeFragment(key);
  }

  lemma ScriptedPagesAreRoutes(key: string)
    ensures ScriptFor(key).Some? ==> key in Routes(En)
  {
  }

  lemma ScriptNamedLikeFragment(key: string)
    ensures ScriptFor(key).Some? ==> ScriptFor(key).value == ScriptDir + PageName(key) + ".js"
  {
    if key == "chat" {
      AppendScript("agentchat", "agentchat.js");
    } else if key == "dropshipping" {
      AppendScript(key, "dropshipping.js");
    } else if key == "marketing" {
      AppendScript(key, "marketing.js");
    } else if key == "reports" {
      AppendScript(key, "reports.js");
    } else if key == "settings" {
      AppendScript(key, "settings.js");
    }
  }

  /** Naming a script by its base name and ".js". */
  lemma AppendScript(name: string, file: string)
    requires name + ".js" == file
    ensures ScriptDir + name + ".js" == ScriptDir + file
  {
  }

  /** A sidebar link: its href attribute ("" when absent) and whether it
      is marked active. */
  datatype Link = Link(href: string, active: bool)

  /** `updateActiveLink(key)`: a link with an href is active exactly when
      the href with its first '#' removed is the key; a link without one
      is left as it was. */
  function UpdateActiveLinks(links: seq<Link>, key: string): (r: seq<Link>)
    ensures |r| == |links|
    ensures forall i :: 0 <= i < |r| ==> r[i].href == links[i].href
    ensures forall i :: 0 <= i < |r| && links[i].href == "" ==> r[i] == links[i]
    ensures forall i :: 0 <= i < |r| && links[i].href != "" ==>
              (r[i].active <==> ReplaceFirst(links[i].href, "#", "") == key)
  {
    seq(|links|, i requires 0 <= i < |links| =>
      if links[i].href == "" then links[i]
      else Link(links[i].href, ReplaceFirst(links[i].href, "#", "") == key))
  }

  /** The fetch outcome for the resolved URL. */
  datatype Response =
    | NetworkError(message: string)
    | NotOk(status: int)
    | Ok(body: string, fragmentTitle: Option<string>)

  /** What the content area shows. Only variant En's error panel names the
      URL. */
  datatype Content = Blank | Fragment(body: string) | LoadError(message: string, url: Option<string>)

  /** The parts of the shell a page load writes: the content area, the
      topbar heading (absent when the page has no heading element), the
      document title, the sidebar links and the dynamic page script. */
  datatype View = View(
    content: Content, heading: Option<string>, documentTitle: string, links: seq<Link>, script: Option<string>)

  /** What variant En's error for a non-OK response says before the
      status code. */
  const StatusPrefix: string := "HTTP error! status: "

  /** The error message the thrown error carries for a non-OK response. */
  function HttpErrorMessage(v: Variant, status: int, url: string): string
  {
    match v
    case En => StatusPrefix + IntToString(status)
    case Root => "Page not found: " + url
  }

  /** Variant En's error message names the status code: it reads back from
      the message, so different codes give different messages. */
  lemma ErrorMessageNamesStatus(status: int, url: string)
    ensures var m := HttpErrorMessage(En, status, url);
            |m| > |StatusPrefix| && m[..|StatusPrefix|] == StatusPrefix
            && IntText(m[|StatusPrefix|..]) && ParseInt(m[|StatusPrefix|..]) == status
  {
    var m := HttpErrorMessage(En, status, url);
    assert m[|StatusPrefix|..] == IntToString(status);
    IntToStringRoundTrip(status);
  }

  /** `loadPage` after its fetch settles. */
  function LoadPage(v: Variant, view: View, hash: string, response: Response): (r: View)
    ensures response.Ok? ==>
              r.content == Fragment(response.body)
              && r.documentTitle == TitlePrefix(v) + PageTitle(response.fragmentTitle, RouteKey(hash))
              && (view.heading.Some? <==> r.heading.Some?)
              && (r.heading.Some? ==> r.heading.value == PageTitle(response.fragmentTitle, RouteKey(hash)))
              && r.links == UpdateActiveLinks(view.links, RouteKey(hash))
              && r.script == (if v == En then ScriptFor(RouteKey(hash)) else view.script)
    ensures !response.Ok? ==>
              r == view.(content := r.content)
              && r.content.LoadError?
              && (r.content.url.Some? <==> v == En)
              && (v == En ==> r.content.url.value == ResolveUrl(v, RouteKey(hash)))
    ensures response.NetworkError? ==> r.content.message == response.message
    ensures response.NotOk? && v == En ==> r.content.message == StatusPrefix + IntToString(response.status)
    ensures response.NotOk? && v == Root ==> r.content.message == "Page not found: " + ResolveUrl(v, RouteKey(hash))
  {
    var key := RouteKey(hash);
    var url := ResolveUrl(v, key);
    match response
    case NetworkError(m) => view.(content := LoadError(m, if v == En then Some(url) else None))
    case NotOk(status) =>
      view.(content := LoadError(HttpErrorMessage(v, status, url), if v == En then Some(url) else None))
    case Ok(body, fragmentTitle) =>
      var title := PageTitle(fragmentTitle, key);
      View(
        Fragment(body),
        if view.heading.Some? then Some(title) else None,
        TitlePrefix(v) + title,
        UpdateActiveLinks(view.links, key),
        if v == En then ScriptFor(key) else view.script)
  }

  /** An unknown route fetches the dashboard fragment, yet the document
      title comes from that fragment's own title or, when it has none,
      from the unknown key; no link to a known route is active. */
  lemma UnknownRouteShowsDashboardUnmarked(
    v: Variant, view: View, fragment: string, body: string, t: Option<string>)
    requires fragment != "" && fragment !in Routes(v)
    requires forall i :: 0 <= i < |view.links| ==> view.links[i].href != "" && ReplaceFirst(view.links[i].href, "#", "") in Routes(v)
    ensures ResolveUrl(v, RouteKey("#" + fragment)) == HtmlDir(v) + "dashboard.html"
    ensures var r := LoadPage(v, view, "#" + fragment, Ok(body, t));
            r.documentTitle == TitlePrefix(v) + PageTitle(t, fragment)
            && forall i :: 0 <= i < |r.links| ==> !r.links[i].active
    ensures (t.None? || t.value == "") ==>
              LoadPage(v, view, "#" + fragment, Ok(body, t)).documentTitle == TitlePrefix(v) + Capitalize(fragment)
    ensures v == En ==> LoadPage(v, view, "#" + fragment, Ok(body, t)).script.None?
  {
    RouteKeyOfFragment(fragment);
  }

  /** What a click on a sidebar link does: the hash it sets, if any, and
      the sidebar afterwards. */
  datatype LinkClick = LinkClick(newHash: Option<string>, shell: Sidebar.Shell)

  /** The sidebar-link click handler: only an href starting with '#' sets
      the hash (to the rest of the href). Variant En then closes the
      sidebar on a window narrower than 768 px. */
  function ClickSidebarLink(v: Variant, href: string, width: int, shell: Sidebar.Shell): (r: LinkClick)
    ensures r.newHash.Some? <==> StartsWith(href, "#")
    ensures r.newHash.Some? ==> "#" + r.newHash.value == href
    ensures r.shell == (if v == En && r.newHash.Some? && width < Sidebar.MobileBreakpoint then Sidebar.Close(shell) else shell)
  {
    if href != "" && StartsWith(href, "#") then
      LinkClick(Some(href[1..]), if v == En && width < Sidebar.MobileBreakpoint then Sidebar.Close(shell) else shell)
    else LinkClick(None, shell)
  }

  /** The hash the browser reports after `location.hash = h`. */
  function HashAfterAssign(h: string): string
  {
    "#" + h
  }

  /** Clicking a link whose href is '#' followed by a route key, then
      loading that page, leaves the clicked link active. */
  lemma ClickedLinkBecomesActive(v: Variant, view: View, i: nat, width: int, shell: Sidebar.Shell, body: string, t: Option<string>)
    requires i < |view.links|
    requires StartsWith(view.links[i].href, "#") && |view.links[i].href| > 1
    ensures var click := ClickSidebarLink(v, view.links[i].href, width, shell);
            click.newHash.Some?
            && LoadPage(v, view, HashAfterAssign(click.newHash.value), Ok(body, t)).links[i].active
  {
    var href := view.links[i].href;
    var fragment := href[1..];
    assert href == "#" + fragment;
    RouteKeyOfFragment(fragment);
    RemovePrefixedPattern("#", fragment);
  }
}

=== FILE: seqs.dfy ===
/**
 * `Array.prototype.filter` and the facts about it that the table and
 * supplier searches rely on: the result keeps its input's order, keeps
 * exactly the elements the predicate accepts, and is never longer.
 */
module Seqs {

  /** `a` is `b` with some elements left out, order kept. */
  ghost predicate IsSubseq<T>(a: seq<T>, b: seq<T>)
    decreases |b|
  {
    |a| == 0 || (|b| > 0 && ((a[0] == b[0] && IsSubseq(a[1..], b[1..])) || IsSubseq(a, b[1..])))
  }

  lemma {:induction false} SubseqTransitive<T>(a: seq<T>, b: seq<T>, c: seq<T>)
    requires IsSubseq(a, b) && IsSubseq(b, c)
    ensures IsSubseq(a, c)
    decreases |c|
  {
    if |a| > 0 {
      if IsSubseq(b, c[1..]) {
        SubseqTransitive(a, b, c[1..]);
      } else if a[0] == b[0] && IsSubseq(a[1..], b[1..]) {
        SubseqTransitive(a[1..], b[1..], c[1..]);
      } else {
        SubseqTransitive(a, b[1..], c[1..]);
      }
    }
  }

  /** `xs.filter(keep)`. */
  function Filter<T>(xs: seq<T>, keep: T -> bool): (r: seq<T>)
    ensures |r| <= |xs|
    ensures IsSubseq(r, xs)
    ensures forall x :: x in r ==> x in xs && keep(x)
    ensures forall x :: x in xs && keep(x) ==> x in r
    decreases |xs|
  {
    if |xs| == 0 then []
    else if keep(xs[0]) then [xs[0]] + Filter(xs[1..], keep)
    else Filter(xs[1..], keep)
  }

  /** Filtering distributes over concatenation. */
  lemma {:induction false} FilterAppend<T>(xs: seq<T>, ys: seq<T>, keep: T -> bool)
    ensures Filter(xs + ys, keep) == Filter(xs, keep) + Filter(ys, keep)
    decreases |xs|
  {
    if |xs| > 0 {
      assert (xs + ys)[1..] == xs[1..] + ys;
      FilterAppend(xs[1..], ys, keep);
    } else {
      assert xs + ys == ys;
    }
  }

  /** Filtering with a predicate that accepts everything changes nothing. */
  lemma {:induction false} FilterAll<T>(xs: seq<T>, keep: T -> bool)
    requires forall x :: x in xs ==> keep(x)
    ensures Filter(xs, keep) == xs
    decreases |xs|
  {
    if |xs| > 0 {
      assert forall x :: x in xs[1..] ==> x in xs;
      FilterAll(xs[1..], keep);
    }
  }

  /** Filtering with a predicate that accepts nothing leaves nothing. */
  lemma FilterNone<T>(xs: seq<T>, keep: T -> bool)
    requires forall x :: x in xs ==> !keep(x)
    ensures Filter(xs, keep) == []
  {
    if Filter(xs, keep) != [] {
      assert Filter(xs, keep)[0] in Filter(xs, keep);
    }
  }

  /** Two filters in a row are one filter by the conjunction. */
  lemma {:induction false} FilterFilter<T>(xs: seq<T>, f: T -> bool, g: T -> bool, fg: T -> bool)
    requires forall x :: fg(x) == (f(x) && g(x))
    ensures Filter(Filter(xs, f), g) == Filter(xs, fg)
    decreases |xs|
  {
    if |xs| > 0 {
      FilterFilter(xs[1..], f, g, fg);
      if f(xs[0]) {
        assert Filter(xs, f) == [xs[0]] + Filter(xs[1..], f);
        assert ([xs[0]] + Filter(xs[1..], f))[1..] == Filter(xs[1..], f);
      }
    }
  }

  /** Filters by two predicates that agree everywhere are equal. */
  lemma {:induction false} FilterSame<T>(xs: seq<T>, f: T -> bool, g: T -> bool)
    requires forall x :: f(x) == g(x)
    ensures Filter(xs, f) == Filter(xs, g)
    decreases |xs|
  {
    if |xs| > 0 {
      FilterSame(xs[1..], f, g);
    }
  }

  lemma {:induction false} SubseqReflexive<T>(xs: seq<T>)
    ensures IsSubseq(xs, xs)
    decreases |xs|
  {
    if |xs| > 0 {
      SubseqReflexive(xs[1..]);
    }
  }

  /** Where `Array.prototype.slice` reads a (possibly negative) bound:
      negative bounds count from the end, and both are clamped. */
  function SliceIndex(i: int, len: nat): (r: nat)
    ensures r <= len
    ensures 0 <= i <= len ==> r == i
  {
    if i < 0 then (if len + i < 0 then 0 else len + i)
    else if i > len then len
    else i
  }

  /** `xs.slice(start, end)`. */
  function Slice<T>(xs: seq<T>, start: int, end: int): (r: seq<T>)
    ensures |r| <= |xs|
  {
    var a := SliceIndex(start, |xs|);
    var b := SliceIndex(end, |xs|);
    if a < b then xs[a..b] else []
  }

  /** For non-negative bounds the slice holds the elements from `start`
      up to `end`, cut off at the end of the sequence. */
  lemma SliceFacts<T>(xs: seq<T>, start: int, end: int)
    requires 0 <= start <= end
    ensures |Slice(xs, start, end)| == (if start >= |xs| then 0 else (if end < |xs| then end else |xs|) - start)
    ensures forall i :: 0 <= i < |Slice(xs, start, end)| ==> Slice(xs, start, end)[i] == xs[start + i]
  {
  }

  /** `xs` is a run of pairs, each accepted by `ok`. */
  predicate Pairs<T>(xs: seq<T>, ok: (T, T) -> bool)
    decreases |xs|
  {
    |xs| == 0 || (|xs| >= 2 && ok(xs[0], xs[1]) && Pairs(xs[2..], ok))
  }

  /** Appending an accepted pair to a run of pairs gives a run of pairs. */
  lemma {:induction false} PairsAppend<T>(xs: seq<T>, a: T, b: T, ok: (T, T) -> bool)
    requires Pairs(xs, ok) && ok(a, b)
    ensures Pairs(xs + [a, b], ok)
    decreases |xs|
  {
    var all := xs + [a, b];
    if |xs| == 0 {
      assert all[2..] == [];
    } else {
      PairsAppend(xs[2..], a, b, ok);
      assert all[2..] == xs[2..] + [a, b];
    }
  }

  /** The same, for the run that starts at index `k` (empty when `k` is
      the length). */
  lemma PairsAppendFrom<T>(xs: seq<T>, k: nat, a: T, b: T, ok: (T, T) -> bool)
    requires k <= |xs| && (k == |xs| || Pairs(xs[k..], ok)) && ok(a, b)
    ensures Pairs((xs + [a, b])[k..], ok)
  {
    if k == |xs| {
      assert xs[k..] == [];
    }
    PairsAppend(xs[k..], a, b, ok);
    assert (xs + [a, b])[k..] == xs[k..] + [a, b];
  }

  lemma AppendTwice<T>(xs: seq<T>, a: T, b: T)
    ensures xs + [a] + [b] == xs + [a, b]
  {
  }

  lemma AppendFour<T>(xs: seq<T>, a: T, b: T, c: T, d: T)
    ensures xs + [a] + [b] + [c] + [d] == xs + [a, b, c, d]
  {
  }

  /** A weaker predicate keeps at least as many elements. */
  lemma {:induction false} FilterWeakerKeepsMore<T>(xs: seq<T>, strong: T -> bool, weak: T -> bool)
    requires forall x :: x in xs && strong(x) ==> weak(x)
    ensures |Filter(xs, strong)| <= |Filter(xs, weak)|
    decreases |xs|
  {
    if |xs| > 0 {
      assert forall x :: x in xs[1..] ==> x in xs;
      FilterWeakerKeepsMore(xs[1..], strong, weak);
    }
  }
}

=== FILE: settings_compare.dfy ===
/**
 * How the two Settings variants relate: the English variant's password
 * and upload checks are strictly stronger than the other variant's.
 */
module SettingsCompare {
  import opened Common
  import opened Text
  import En = SettingsEn
  import Www = SettingsWww

  function ToWwwForm(f: En.PasswordForm): Www.PasswordForm
  {
    Www.PasswordForm(f.current, f.newPassword, f.confirmation)
  }

  function ToWwwFile(file: Option<En.File>): Option<Www.File>
  {
    match file
    case None => None
    case Some(f) => Some(Www.File(f.mimeType, f.size))
  }

  /** Every password the English variant accepts, the other accepts too;
      they disagree exactly on the strength check. */
  lemma PasswordChecksCompare(f: En.PasswordForm)
    ensures En.UpdatePassword(f).error.None? ==> Www.UpdatePassword(ToWwwForm(f)).error.None?
    ensures (Www.UpdatePassword(ToWwwForm(f)).error.None? && En.UpdatePassword(f).error.Some?)
              <==> (Www.UpdatePassword(ToWwwForm(f)).error.None? && En.PasswordStrength(f.newPassword) < 50)
    ensures (Www.UpdatePassword(ToWwwForm(f)).error.None? && En.UpdatePassword(f).error.Some?)
              ==> En.UpdatePassword(f).error == Some(En.TooWeak)
  {
  }

  /** An 8 to 11 character password with at most one of mixed case, digit
      and symbol passes one variant and fails the other. */
  lemma WeakPasswordSplitsVariants(current: string, p: string)
    requires current != "" && 8 <= |p| < 12 && En.Extras(p) <= 1
    ensures Www.UpdatePassword(Www.PasswordForm(current, p, p)).error.None?
    ensures En.UpdatePassword(En.PasswordForm(current, p, p)).error == Some(En.TooWeak)
  {
    En.StrengthAtLeast50Iff(p);
  }

  /** The English upload check implies the other; the two differ on a
      missing file (silence against a warning) and on large images. */
  lemma UploadChecksCompare(file: Option<En.File>)
    ensures En.HandleFileUpload(file).Accepted? ==> Www.HandleFileUpload(ToWwwFile(file)).Accepted?
    ensures file.None? ==> En.HandleFileUpload(file).Ignored? && Www.HandleFileUpload(ToWwwFile(file)).Rejected?
    ensures (file.Some? && StartsWith(file.value.mimeType, "image/") && file.value.size > En.MaxImageBytes)
              ==> En.HandleFileUpload(file).Rejected? && Www.HandleFileUpload(ToWwwFile(file)).Accepted?
  {
  }

  function ToWwwProfile(f: En.ProfileForm): Www.ProfileForm
  {
    Www.ProfileForm(f.fullName, f.email, f.phone, f.company)
  }

  /** The other variant validates nothing: every profile the English
      variant saves it reports saved with the same notice, and so is a
      profile whose e-mail the English variant refuses. */
  lemma ProfileChecksCompare(u: En.UserData, f: En.ProfileForm)
    ensures Www.SaveProfile(ToWwwProfile(f)).kind == Success
    ensures En.SaveProfile(u, f).firstInvalid.None? ==> Www.SaveProfile(ToWwwProfile(f)) == En.SaveProfile(u, f).notice
    ensures !En.MatchesEmailPattern(Trim(f.email)) ==>
              En.SaveProfile(u, f).firstInvalid.Some? && En.SaveProfile(u, f).notice.kind == Warning
  {
  }

  /** Both variants refuse to set up two-factor sign-in with the same
      warning while the box is unticked; once it is ticked, one opens the
      setup modal and the other only announces it. */
  lemma TwoFactorCompare(enabled: bool)
    ensures En.Setup2FA(enabled).TwoFactorWarned? <==> Www.Setup2FA(enabled).kind == Warning
    ensures !enabled ==> En.Setup2FA(enabled).notice == Www.Setup2FA(enabled)
    ensures enabled ==> En.Setup2FA(enabled).TwoFactorModal? && Www.Setup2FA(enabled).kind == Info
  {
  }
}

=== FILE: settings_en.dfy ===
/**
 * The validation rules of the Settings page, English variant
 * (WWW-en/js/settings.js): the password-strength score and its label, the
 * ordered checks of a password update, per-field profile validation with
 * the e-mail pattern, the all-or-nothing profile save, notification flags
 * and profile-picture upload acceptance.
 *
 * The page's `setTimeout` "API calls" are modelled by their end state.
 */
module SettingsEn {
  import opened Common
  import opened Text

  // =====================================================================
  // Password strength

  predicate HasLower(p: string) { exists k :: 0 <= k < |p| && IsLower(p[k]) }
  predicate HasUpper(p: string) { exists k :: 0 <= k < |p| && IsUpper(p[k]) }
  /** `/\d/`: JavaScript's `\d` is the ASCII digits only. */
  predicate HasDigit(p: string) { exists k :: 0 <= k < |p| && IsDigit(p[k]) }
  /** `/[^a-zA-Z0-9]/`. */
  predicate HasSymbol(p: string) { exists k :: 0 <= k < |p| && !IsAlnum(p[k]) }

  /** The five things the scorer rewards, in the order it tests them. */
  datatype Criterion = Length8 | Length12 | MixedCase | Digit | Symbol

  const Criteria: seq<Criterion> := [Length8, Length12, MixedCase, Digit, Symbol]

  function Weight(c: Criterion): nat
  {
    match c
    case Length8 => 25
    case Length12 => 25
    case MixedCase => 20
    case Digit => 15
    case Symbol => 15
  }

  predicate Meets(p: string, c: Criterion)
  {
    match c
    case Length8 => |p| >= 8
    case Length12 => |p| >= 12
    case MixedCase => HasLower(p) && HasUpper(p)
    case Digit => HasDigit(p)
    case Symbol => HasSymbol(p)
  }

  /** Reference score: the sum of the weights of the criteria met. */
  function Score(p: string, cs: seq<Criterion>): nat
    decreases |cs|
  {
    if |cs| == 0 then 0
    else (if Meets(p, cs[0]) then Weight(cs[0]) else 0) + Score(p, cs[1..])
  }

  function TotalWeight(cs: seq<Criterion>): nat
    decreases |cs|
  {
    if |cs| == 0 then 0 else Weight(cs[0]) + TotalWeight(cs[1..])
  }

  /** `calculatePasswordStrength`, written as the page writes it. */
  function PasswordStrength(p: string): (r: nat)
    ensures r <= 100
    ensures |p| < 8 ==> r <= 50
    ensures |p| >= 12 ==> r >= 50
  {
    (if |p| >= 8 then 25 else 0)
    + (if |p| >= 12 then 25 else 0)
    + (if HasLower(p) && HasUpper(p) then 20 else 0)
    + (if HasDigit(p) then 15 else 0)
    + (if HasSymbol(p) then 15 else 0)
  }

  lemma {:induction false} ScoreAtMostTotal(p: string, cs: seq<Criterion>)
    ensures Score(p, cs) <= TotalWeight(cs)
    decreases |cs|
  {
    if |cs| > 0 {
      ScoreAtMostTotal(p, cs[1..]);
    }
  }

  /** The scorer is the weighted sum of the criteria met, and so never
      exceeds the total weight, 100. */
  lemma StrengthIsWeightedSum(p: string)
    ensures PasswordStrength(p) == Score(p, Criteria)
    ensures TotalWeight(Criteria) == 100
  {
    assert Criteria[1..] == [Length12, MixedCase, Digit, Symbol];
    assert Criteria[1..][1..] == [MixedCase, Digit, Symbol];
    assert Criteria[1..][1..][1..] == [Digit, Symbol];
    assert Criteria[1..][1..][1..][1..] == [Symbol];
    assert Criteria[1..][1..][1..][1..][1..] == [];
  }

  /** How many of mixed case, digit and symbol a password has. */
  function Extras(p: string): nat
  {
    (if HasLower(p) && HasUpper(p) then 1 else 0)
    + (if HasDigit(p) then 1 else 0)
    + (if HasSymbol(p) then 1 else 0)
  }

  /** A password of 8 to 11 characters needs two of mixed case, digit and
      symbol to score 50; from 12 characters on it scores 50 regardless.
      Mixed case alone at length 8 scores 45. */
  lemma StrengthAtLeast50Iff(p: string)
    ensures PasswordStrength(p) >= 50 <==>
              |p| >= 12 || (|p| >= 8 && Extras(p) >= 2) || Extras(p) == 3
  {
  }

  /** Appending characters never lowers the score. */
  lemma StrengthMonotone(p: string, q: string)
    ensures PasswordStrength(p) <= PasswordStrength(p + q)
  {
    var pq := p + q;
    if HasLower(p) {
      var k :| 0 <= k < |p| && IsLower(p[k]);
      assert pq[k] == p[k];
    }
    if HasUpper(p) {
      var k :| 0 <= k < |p| && IsUpper(p[k]);
      assert pq[k] == p[k];
    }
    if HasDigit(p) {
      var k :| 0 <= k < |p| && IsDigit(p[k]);
      assert pq[k] == p[k];
    }
    if HasSymbol(p) {
      var k :| 0 <= k < |p| && !IsAlnum(p[k]);
      assert pq[k] == p[k];
    }
  }

  // =====================================================================
  // Strength indicator

  datatype StrengthLabel = Weak | Medium | Strong

  datatype Indicator = Indicator(level: StrengthLabel, colour: string, width: nat)

  function LabelOf(strength: nat): (l: StrengthLabel)
    ensures l == Strong <==> strength >= 75
    ensures l == Medium <==> 50 <= strength < 75
    ensures l == Weak <==> strength < 50
  {
    if strength >= 75 then Strong else if strength >= 50 then Medium else Weak
  }

  function LabelColour(l: StrengthLabel): string
  {
    match l
    case Strong => "#04910C"
    case Medium => "#FFA500"
    case Weak => "#ED544E"
  }

  /** `showPasswordStrength`: no indicator for an empty password, otherwise
      a label, its colour, and a bar as wide (in percent) as the score. */
  function StrengthIndicator(p: string): (r: Option<Indicator>)
    ensures r.None? <==> p == ""
    ensures r.Some? ==> r.value.width == PasswordStrength(p) <= 100
    ensures r.Some? ==> r.value.level == LabelOf(PasswordStrength(p))
    ensures r.Some? ==> r.value.colour == LabelColour(r.value.level)
  {
    if p == "" then None
    else
      var s := PasswordStrength(p);
      var l := LabelOf(s);
      Some(Indicator(l, LabelColour(l), s))
  }

  /** The label in terms of length and character classes: "Strong" needs
      12 characters and two extras, or 8 characters and all three. */
  lemma LabelByClasses(p: string)
    requires p != ""
    ensures StrengthIndicator(p).value.level == Strong <==>
              (|p| >= 12 && Extras(p) >= 2) || (|p| >= 8 && Extras(p) == 3)
    ensures StrengthIndicator(p).value.level != Weak <==>
              |p| >= 12 || (|p| >= 8 && Extras(p) >= 2) || Extras(p) == 3
  {
    StrengthAtLeast50Iff(p);
  }

  // =====================================================================
  // Password update

  datatype PasswordForm = PasswordForm(current: string, newPassword: string, confirmation: string)

  const ClearedPasswordForm := PasswordForm("", "", "")

  /** The checks of `updatePassword`, in the order they run. */
  datatype PasswordError = EmptyField | Mismatch | TooShort | TooWeak

  const PasswordChecks: seq<PasswordError> := [EmptyField, Mismatch, TooShort, TooWeak]

  /** Each check on its own, independent of the order. */
  predicate Fails(f: PasswordForm, e: PasswordError)
  {
    match e
    case EmptyField => f.current == "" || f.newPassword == "" || f.confirmation == ""
    case Mismatch => f.newPassword != f.confirmation
    case TooShort => |f.newPassword| < 8
    case TooWeak => PasswordStrength(f.newPassword) < 50
  }

  function Rank(e: PasswordError): (k: nat)
    ensures k < |PasswordChecks| && PasswordChecks[k] == e
  {
    match e
    case EmptyField => 0
    case Mismatch => 1
    case TooShort => 2
    case TooWeak => 3
  }

  /** The failure `updatePassword` reports: the first check that fails. */
  function FirstFailure(f: PasswordForm): (r: Option<PasswordError>)
    ensures r.None? <==> forall e :: !Fails(f, e)
    ensures r.Some? ==> Fails(f, r.value)
    ensures r.Some? ==> forall k :: 0 <= k < Rank(r.value) ==> !Fails(f, PasswordChecks[k])
  {
    if f.current == "" || f.newPassword == "" || f.confirmation == "" then
      assert Fails(f, EmptyField); Some(EmptyField)
    else if f.newPassword != f.confirmation then
      assert Fails(f, Mismatch); Some(Mismatch)
    else if |f.newPassword| < 8 then
      assert Fails(f, TooShort); Some(TooShort)
    else if PasswordStrength(f.newPassword) < 50 then
      assert Fails(f, TooWeak); Some(TooWeak)
    else None
  }

  /** Which input gets an inline error next to it. */
  datatype FieldError = FieldError(fieldId: string, message: string)

  datatype PasswordUpdate = PasswordUpdate(
    error: Option<PasswordError>, form: PasswordForm, notice: Notice, fieldError: Option<FieldError>)

  function PasswordNotice(e: PasswordError): Notice
  {
    match e
    case EmptyField => Notice("Please fill in all password fields", Warning)
    case Mismatch => Notice("New passwords do not match", Warning)
    case TooShort => Notice("Password must be at least 8 characters", Warning)
    case TooWeak => Notice("Please use a stronger password", Warning)
  }

  function PasswordFieldError(e: PasswordError): Option<FieldError>
  {
    match e
    case Mismatch => Some(FieldError("confirm-password", "Passwords do not match"))
    case TooShort => Some(FieldError("new-password", "Password too short"))
    case _ => None
  }

  /** `updatePassword`, at the end of its simulated request. */
  function UpdatePassword(f: PasswordForm): (r: PasswordUpdate)
    ensures r.error.None? <==>
              f.current != "" && f.newPassword == f.confirmation
              && |f.newPassword| >= 8 && PasswordStrength(f.newPassword) >= 50
    ensures r.error == FirstFailure(f)
    ensures r.error.None? ==> r.form == ClearedPasswordForm && r.notice == Notice("Password updated successfully!", Success)
    ensures r.error.Some? ==> r.form == f && r.notice == PasswordNotice(r.error.value) && r.notice.kind == Warning
    ensures r.fieldError.Some? <==> r.error == Some(Mismatch) || r.error == Some(TooShort)
    ensures r.error == Some(Mismatch) ==> r.fieldError == Some(FieldError("confirm-password", "Passwords do not match"))
    ensures r.error == Some(TooShort) ==> r.fieldError == Some(FieldError("new-password", "Password too short"))
  {
    match FirstFailure(f)
    case Some(e) => PasswordUpdate(Some(e), f, PasswordNotice(e), PasswordFieldError(e))
    case None => PasswordUpdate(None, ClearedPasswordForm, Notice("Password updated successfully!", Success), None)
  }

  /** An accepted new password always showed a "Medium" or "Strong"
      indicator while it was typed. */
  lemma AcceptedPasswordNotWeak(f: PasswordForm)
    requires UpdatePassword(f).error.None?
    ensures StrengthIndicator(f.newPassword).Some?
    ensures StrengthIndicator(f.newPassword).value.level != Weak
  {
  }

  /** The check order decides the report: a form failing several checks
      reports the earliest of them. */
  lemma FirstFailureIsEarliest(f: PasswordForm, e: PasswordError)
    requires Fails(f, e)
    ensures FirstFailure(f).Some? && Rank(FirstFailure(f).value) <= Rank(e)
  {
  }

  /** `validatePasswordMatch`: the live hint under the confirmation box. */
  datatype MatchHint = ShowMismatch | ClearHint | LeaveHint

  function PasswordMatchHint(password: string, confirmation: string): (h: MatchHint)
    ensures h == ShowMismatch <==> confirmation != "" && password != confirmation
    ensures h == LeaveHint <==> confirmation == ""
  {
    if confirmation != "" && password != confirmation then ShowMismatch
    else if confirmation != "" then ClearHint
    else LeaveHint
  }

  /** A form whose live hint shows a mismatch is refused at submit time with
      the empty-field or the mismatch warning. */
  lemma MismatchHintAgreesWithSubmit(f: PasswordForm)
    requires PasswordMatchHint(f.newPassword, f.confirmation) == ShowMismatch
    ensures UpdatePassword(f).error == Some(EmptyField) || UpdatePassword(f).error == Some(Mismatch)
  {
  }

  // =====================================================================
  // Profile validation

  /** One part of `^[^\s@]+@[^\s@]+\.[^\s@]+$`: non-empty, no white space,
      no '@'. */
  predicate EmailPart(x: string)
  {
    |x| > 0 && forall k :: 0 <= k < |x| ==> !IsSpace(x[k]) && x[k] != '@'
  }

  /** The e-mail regular expression, read as a statement about where the
      '@' and the '.' sit. */
  ghost predicate MatchesEmailPattern(s: string)
  {
    exists i, j :: 0 <= i < j < |s| && s[i] == '@' && s[j] == '.'
                   && EmailPart(s[..i]) && EmailPart(s[i + 1..j]) && EmailPart(s[j + 1..])
  }

  /** An executable test for the e-mail pattern: split at the first '@',
      then look for a '.' strictly inside the domain. */
  predicate IsEmail(s: string)
  {
    match IndexOf(s, "@")
    case None => false
    case Some(i) =>
      var domain := s[i + 1..];
      0 < i && (forall k :: 0 <= k < |s| ==> !IsSpace(s[k]))
      && '@' !in domain && 3 <= |domain| && '.' in domain[1..|domain| - 1]
  }

  lemma IsEmailSound(s: string)
    requires IsEmail(s)
    ensures MatchesEmailPattern(s)
  {
    var i := IndexOf(s, "@").value;
    var domain := s[i + 1..];
    OccursAtChar(s, '@', i);
    var m :| 0 <= m < |domain[1..|domain| - 1]| && domain[1..|domain| - 1][m] == '.';
    var j := i + 2 + m;
    assert s[j] == '.';
    forall k | 0 <= k < i ensures s[k] != '@' {
      OccursAtChar(s, '@', k);
    }
    assert EmailPart(s[..i]);
    forall k | i + 1 <= k < |s| ensures s[k] != '@' {
      assert s[k] == domain[k - i - 1];
    }
    assert EmailPart(s[i + 1..j]);
    assert EmailPart(s[j + 1..]);
  }

  lemma IsEmailComplete(s: string)
    requires MatchesEmailPattern(s)
    ensures IsEmail(s)
  {
    var i, j :| 0 <= i < j < |s| && s[i] == '@' && s[j] == '.'
                && EmailPart(s[..i]) && EmailPart(s[i + 1..j]) && EmailPart(s[j + 1..]);
    EmailFromParts(s, i, j);
  }

  /** The executable test accepts the three parts the pattern matched. */
  lemma EmailFromParts(s: string, i: nat, j: nat)
    requires i < j < |s| && s[i] == '@' && s[j] == '.'
    requires EmailPart(s[..i]) && EmailPart(s[i + 1..j]) && EmailPart(s[j + 1..])
    ensures IsEmail(s)
  {
    FirstAtOfPattern(s, i);
    PatternCharacters(s, i, j);
    assert 0 < i && i + 1 < j && j + 1 < |s| by {
      assert |s[..i]| > 0 && |s[i + 1..j]| > 0 && |s[j + 1..]| > 0;
    }
    var domain := s[i + 1..];
    var inner := domain[1..|domain| - 1];
    assert inner[j - i - 2] == '.';
  }

  /** The '@' after a first part without one is the first '@'. */
  lemma FirstAtOfPattern(s: string, i: nat)
    requires i < |s| && s[i] == '@' && EmailPart(s[..i])
    ensures IndexOf(s, "@") == Some(i)
  {
    OccursAtChar(s, '@', i);
    forall k | 0 <= k < i ensures !OccursAt(s, "@", k) {
      OccursAtChar(s, '@', k);
      assert s[k] == s[..i][k];
    }
  }

  /** Three parts without white space or '@' around one '@' and one '.':
      no white space anywhere, and no '@' after the first. */
  lemma PatternCharacters(s: string, i: nat, j: nat)
    requires i < j < |s| && s[i] == '@' && s[j] == '.'
    requires EmailPart(s[..i]) && EmailPart(s[i + 1..j]) && EmailPart(s[j + 1..])
    ensures forall k :: 0 <= k < |s| ==> !IsSpace(s[k])
    ensures '@' !in s[i + 1..]
  {
    forall k | 0 <= k < |s| ensures !IsSpace(s[k]) && (k != i ==> s[k] != '@') {
      if k < i {
        assert s[k] == s[..i][k];
      } else if i < k < j {
        assert s[k] == s[i + 1..j][k - i - 1];
      } else if j < k {
        assert s[k] == s[j + 1..][k - j - 1];
      }
    }
    var domain := s[i + 1..];
    forall k | 0 <= k < |domain| ensures domain[k] != '@' {
      assert domain[k] == s[i + 1 + k];
    }
  }

  /** The executable test agrees with the pattern, both ways. */
  lemma IsEmailIff(s: string)
    ensures IsEmail(s) <==> MatchesEmailPattern(s)
  {
    if IsEmail(s) { IsEmailSound(s); }
    if MatchesEmailPattern(s) { IsEmailComplete(s); }
  }

  datatype FieldCheck = Valid | Invalid(message: string)

  /** `validateField`: the rules apply to the trimmed value; ids other than
      full-name, email and phone are always valid. */
  function ValidateField(id: string, value: string): (r: FieldCheck)
    ensures id == "full-name" ==> (r.Valid? <==> |Trim(value)| >= 2)
    ensures id == "email" ==> (r.Valid? <==> MatchesEmailPattern(Trim(value)))
    ensures id == "phone" ==> (r.Valid? <==> |Trim(value)| >= 10)
    ensures id != "full-name" && id != "email" && id != "phone" ==> r.Valid?
  {
    var v := Trim(value);
    IsEmailIff(v);
    if id == "full-name" then
      (if |v| < 2 then Invalid("Name must be at least 2 characters") else Valid)
    else if id == "email" then
      (if !IsEmail(v) then Invalid("Please enter a valid email address") else Valid)
    else if id == "phone" then
      (if |v| < 10 then Invalid("Please enter a valid phone number") else Valid)
    else Valid
  }

  // =====================================================================
  // Profile save and notification preferences

  datatype UserData = UserData(
    fullName: string, email: string, phone: string, company: string,
    language: string, timezone: string, currency: string, dateFormat: string,
    notifications: map<string, bool>)

  /** The page's built-in user. */
  const InitialUserData := UserData(
    "AmirAli Ghadiri", "amiralighadiri1383@gmail.com", "(+98) 913-375-4366", "",
    "en", "utc", "usd", "mdy",
    map["orders" := true, "marketing" := true, "reports" := false])

  datatype ProfileForm = ProfileForm(fullName: string, email: string, phone: string, company: string)

  /** The result of `saveProfile`: the first field that failed (only that
      one gets an error, as `every` stops there), and the user data. */
  datatype ProfileSave = ProfileSave(firstInvalid: Option<string>, user: UserData, notice: Notice)

  predicate ProfileValid(f: ProfileForm)
  {
    ValidateField("full-name", f.fullName).Valid?
    && ValidateField("email", f.email).Valid?
    && ValidateField("phone", f.phone).Valid?
  }

  function SaveProfile(u: UserData, f: ProfileForm): (r: ProfileSave)
    ensures r.firstInvalid.None? <==> ProfileValid(f)
    ensures r.firstInvalid.None? ==>
              r.user == u.(fullName := f.fullName, email := f.email, phone := f.phone, company := f.company)
    ensures r.firstInvalid.Some? ==> r.user == u && r.notice == Notice("Please fix the errors before saving", Warning)
    ensures r.firstInvalid.None? ==> r.notice == Notice("Profile updated successfully!", Success)
    ensures r.firstInvalid == Some("full-name") <==> !ValidateField("full-name", f.fullName).Valid?
    ensures r.firstInvalid == Some("email") <==>
              ValidateField("full-name", f.fullName).Valid? && !ValidateField("email", f.email).Valid?
    ensures r.firstInvalid == Some("phone") <==>
              ValidateField("full-name", f.fullName).Valid? && ValidateField("email", f.email).Valid?
              && !ValidateField("phone", f.phone).Valid?
  {
    if !ValidateField("full-name", f.fullName).Valid? then
      ProfileSave(Some("full-name"), u, Notice("Please fix the errors before saving", Warning))
    else if !ValidateField("email", f.email).Valid? then
      ProfileSave(Some("email"), u, Notice("Please fix the errors before saving", Warning))
    else if !ValidateField("phone", f.phone).Valid? then
      ProfileSave(Some("phone"), u, Notice("Please fix the errors before saving", Warning))
    else
      ProfileSave(None, u.(fullName := f.fullName, email := f.email, phone := f.phone, company := f.company),
                  Notice("Profile updated successfully!", Success))
  }

  /** The company field never affects whether a save goes through. */
  lemma CompanyNeverValidated(u: UserData, f: ProfileForm, company: string)
    ensures SaveProfile(u, f.(company := company)).firstInvalid == SaveProfile(u, f).firstInvalid
  {
  }

  /** Values are validated trimmed but stored as typed: padding a valid
      name with a leading space still saves, and saves the padding. */
  lemma SavedValuesAreUntrimmed(u: UserData, f: ProfileForm)
    requires ProfileValid(f)
    ensures SaveProfile(u, f.(fullName := " " + f.fullName)).firstInvalid.None?
    ensures SaveProfile(u, f.(fullName := " " + f.fullName)).user.fullName == " " + f.fullName
  {
    TrimLeadingSpace(' ', f.fullName);
  }

  /** The key a notification checkbox updates: its id with the first
      "notify-" removed. */
  function NotificationKey(checkboxId: string): string
  {
    ReplaceFirst(checkboxId, "notify-", "")
  }

  /** `updateNotificationPreference`: only the checkbox's own key changes. */
  function UpdateNotificationPreference(u: UserData, checkboxId: string, checked: bool): (r: UserData)
    ensures NotificationKey(checkboxId) in r.notifications
    ensures r.notifications[NotificationKey(checkboxId)] == checked
    ensures forall k :: k != NotificationKey(checkboxId) ==>
              (k in r.notifications <==> k in u.notifications)
              && (k in u.notifications ==> r.notifications[k] == u.notifications[k])
    ensures r.(notifications := u.notifications) == u
  {
    u.(notifications := u.notifications[NotificationKey(checkboxId) := checked])
  }

  /** The page's checkbox ids are "notify-" followed by the key. */
  lemma NotificationKeyOfCheckbox(key: string)
    ensures NotificationKey("notify-" + key) == key
  {
    RemovePrefixedPattern("notify-", key);
  }

  /** The toast after a notification toggle: an info notice naming the
      key, capitalised, and whether it is now on or off. */
  function NotificationToggleNotice(checkboxId: string, checked: bool): (n: Notice)
    ensures n.kind == Info
  {
    Notice(Capitalize(NotificationKey(checkboxId)) + " notifications " + (if checked then "enabled" else "disabled"), Info)
  }

  /** The toast for the page's checkbox "notify-" + key names that key,
      capitalised, and says whether it was switched on or off. */
  lemma ToggleNoticeNamesKey(key: string, checked: bool)
    ensures NotificationToggleNotice("notify-" + key, checked) ==
              Notice(Capitalize(key) + " notifications " + (if checked then "enabled" else "disabled"), Info)
  {
    NotificationKeyOfCheckbox(key);
  }

  // =====================================================================
  // Two-factor authentication

  datatype TwoFactorOutcome = TwoFactorWarned(notice: Notice) | TwoFactorModal

  /** `setup2FA`: a warning unless the enable-2fa box is ticked; when it
      is, the setup modal opens. */
  function Setup2FA(enabled: bool): (r: TwoFactorOutcome)
    ensures r.TwoFactorModal? <==> enabled
    ensures r.TwoFactorWarned? ==> r.notice == Notice("Please enable 2FA first", Warning)
  {
    if !enabled then TwoFactorWarned(Notice("Please enable 2FA first", Warning)) else TwoFactorModal
  }

  // =====================================================================
  // Profile picture upload

  datatype File = File(mimeType: string, size: nat)

  /** 5 MiB. */
  const MaxImageBytes: nat := 5 * 1024 * 1024

  datatype UploadOutcome = Ignored | Rejected(notice: Notice) | Accepted

  /** `handleFileUpload`: without a file nothing happens; a non-image or an
      image over 5 MiB is refused; anything else becomes the picture. */
  function HandleFileUpload(file: Option<File>): (r: UploadOutcome)
    ensures r.Ignored? <==> file.None?
    ensures r.Accepted? <==>
              file.Some? && StartsWith(file.value.mimeType, "image/") && file.value.size <= MaxImageBytes
    ensures r.Rejected? ==> r.notice.kind == Warning
  {
    match file
    case None => Ignored
    case Some(f) =>
      if !StartsWith(f.mimeType, "image/") then Rejected(Notice("Please select a valid image file", Warning))
      else if f.size > MaxImageBytes then Rejected(Notice("Image size must be less than 5MB", Warning))
      else Accepted
  }

  /** The limit is inclusive: exactly 5 MiB passes, one byte more does not. */
  lemma UploadLimitInclusive(mime: string)
    requires StartsWith(mime, "image/")
    ensures HandleFileUpload(Some(File(mime, 5242880))).Accepted?
    ensures HandleFileUpload(Some(File(mime, 5242881))).Rejected?
  {
  }
}

=== FILE: settings_nav.dfy ===
/**
 * Section switching on the Settings page. Both variants of settings.js
 * apply the same active-class logic in `switchSection`: every nav item
 * and every section loses its active class, then the nav items whose
 * `data-section` equals the chosen name, and the sections whose id is that
 * name followed by "-section", get it back. The English variant then also
 * scrolls to the top on narrow screens, which is not modelled. A click on
 * the nav item named "logout" asks to log out instead of switching.
 */
module SettingsNav {

  datatype NavItem = NavItem(section: string, active: bool)
  datatype Section = Section(id: string, active: bool)

  /** The part of the Settings page that section switching touches. */
  datatype NavState = NavState(nav: seq<NavItem>, sections: seq<Section>)

  /** The element id of the section that a nav name selects. */
  function SectionId(name: string): string
  {
    name + "-section"
  }

  function SwitchSection(p: NavState, name: string): (r: NavState)
    ensures |r.nav| == |p.nav| && |r.sections| == |p.sections|
    ensures forall i :: 0 <= i < |r.nav| ==>
              r.nav[i].section == p.nav[i].section && (r.nav[i].active <==> p.nav[i].section == name)
    ensures forall i :: 0 <= i < |r.sections| ==>
              r.sections[i].id == p.sections[i].id && (r.sections[i].active <==> p.sections[i].id == SectionId(name))
  {
    NavState(
      seq(|p.nav|, i requires 0 <= i < |p.nav| => NavItem(p.nav[i].section, p.nav[i].section == name)),
      seq(|p.sections|, i requires 0 <= i < |p.sections| => Section(p.sections[i].id, p.sections[i].id == SectionId(name))))
  }

  /** What a click on a nav item does. */
  datatype NavClick = LogoutRequested | Switched(state: NavState)

  function ClickNavItem(p: NavState, section: string): (r: NavClick)
    ensures r.LogoutRequested? <==> section == "logout"
    ensures r.Switched? ==> r.state == SwitchSection(p, section)
  {
    if section == "logout" then LogoutRequested else Switched(SwitchSection(p, section))
  }

  /** The outcome of a switch does not depend on which section was active
      before: the last switch wins. */
  lemma SwitchSectionLastWins(p: NavState, a: string, b: string)
    ensures SwitchSection(SwitchSection(p, a), b) == SwitchSection(p, b)
  {
  }

  predicate DistinctIds(ss: seq<Section>)
  {
    forall i, j :: 0 <= i < j < |ss| ==> ss[i].id != ss[j].id
  }

  /** With distinct section ids, a switch leaves at most one section active,
      and exactly one when a section for the chosen name exists. */
  lemma SwitchSectionSingleActive(p: NavState, name: string)
    requires DistinctIds(p.sections)
    ensures var r := SwitchSection(p, name).sections;
            forall i, j :: 0 <= i < |r| && 0 <= j < |r| && r[i].active && r[j].active ==> i == j
    ensures var r := SwitchSection(p, name).sections;
            (exists i :: 0 <= i < |r| && r[i].active) <==> (exists i :: 0 <= i < |p.sections| && p.sections[i].id == SectionId(name))
  {
  }
}

=== FILE: settings_www.dfy ===
/**
 * The Settings page, variant WWW/js/settings.js. It shares the section
 * switching of the other variant (module SettingsNav) but differs in its
 * checks: the password update has no strength test, the upload has no size
 * limit and warns when no file is chosen, and the profile save validates
 * nothing and stores nothing.
 */
module SettingsWww {
  import opened Common
  import opened Text

  datatype PasswordForm = PasswordForm(current: string, newPassword: string, confirmation: string)

  const ClearedPasswordForm := PasswordForm("", "", "")

  /** The checks of this variant's `updatePassword`, in order. */
  datatype PasswordError = EmptyField | Mismatch | TooShort

  function FirstFailure(f: PasswordForm): (r: Option<PasswordError>)
    ensures r == Some(EmptyField) <==> f.current == "" || f.newPassword == "" || f.confirmation == ""
    ensures r == Some(Mismatch) <==>
              f.current != "" && f.newPassword != "" && f.confirmation != "" && f.newPassword != f.confirmation
    ensures r == Some(TooShort) <==>
              f.current != "" && f.newPassword != "" && f.newPassword == f.confirmation && |f.newPassword| < 8
  {
    if f.current == "" || f.newPassword == "" || f.confirmation == "" then Some(EmptyField)
    else if f.newPassword != f.confirmation then Some(Mismatch)
    else if |f.newPassword| < 8 then Some(TooShort)
    else None
  }

  datatype PasswordUpdate = PasswordUpdate(error: Option<PasswordError>, form: PasswordForm, notice: Notice)

  function PasswordNotice(e: PasswordError): Notice
  {
    match e
    case EmptyField => Notice("Please fill in all password fields", Warning)
    case Mismatch => Notice("New passwords do not match", Warning)
    case TooShort => Notice("Password must be at least 8 characters", Warning)
  }

  /** `updatePassword`, at the end of its simulated request. */
  function UpdatePassword(f: PasswordForm): (r: PasswordUpdate)
    ensures r.error.None? <==> f.current != "" && f.newPassword == f.confirmation && |f.newPassword| >= 8
    ensures r.error == FirstFailure(f)
    ensures r.error.None? ==> r.form == ClearedPasswordForm && r.notice == Notice("Password updated successfully!", Success)
    ensures r.error.Some? ==> r.form == f && r.notice == PasswordNotice(r.error.value) && r.notice.kind == Warning
  {
    match FirstFailure(f)
    case Some(e) => PasswordUpdate(Some(e), f, PasswordNotice(e))
    case None => PasswordUpdate(None, ClearedPasswordForm, Notice("Password updated successfully!", Success))
  }

  /** A cleared form is refused on resubmission, with the empty-field
      warning. */
  lemma ClearedFormRefused()
    ensures UpdatePassword(UpdatePassword(PasswordForm("old", "new-password", "new-password")).form).error == Some(EmptyField)
  {
  }

  datatype File = File(mimeType: string, size: nat)

  datatype UploadOutcome = Rejected(notice: Notice) | Accepted

  /** `handleFileUpload`: any image is accepted whatever its size; a
      missing file gets the same warning as a non-image. */
  function HandleFileUpload(file: Option<File>): (r: UploadOutcome)
    ensures r.Accepted? <==> file.Some? && StartsWith(file.value.mimeType, "image/")
    ensures r.Rejected? ==> r.notice == Notice("Please select a valid image file", Warning)
  {
    if file.Some? && StartsWith(file.value.mimeType, "image/") then Accepted
    else Rejected(Notice("Please select a valid image file", Warning))
  }

  /** `setup2FA`: only a warning unless the enable-2fa box is ticked. */
  function Setup2FA(enabled: bool): (r: Notice)
    ensures r.kind == Warning <==> !enabled
    ensures enabled ==> r == Notice("2FA setup wizard would open here", Info)
  {
    if !enabled then Notice("Please enable 2FA first", Warning)
    else Notice("2FA setup wizard would open here", Info)
  }

  datatype ProfileForm = ProfileForm(fullName: string, email: string, phone: string, company: string)

  /** `saveProfile`: whatever was typed is reported as saved. */
  function SaveProfile(f: ProfileForm): (r: Notice)
    ensures r.kind == Success
  {
    Notice("Profile updated successfully!", Success)
  }

  /** `showNotification` colours: the four known kinds, and the info
      colour for anything else. */
  function NotificationColour(kind: string): (c: string)
    ensures kind == "success" ==> c == "#04910C"
    ensures kind == "warning" ==> c == "#FFA500"
    ensures kind == "error" ==> c == "#ED544E"
    ensures kind !in {"success", "warning", "error"} ==> c == "#8237E8"
  {
    if kind == "success" then "#04910C"
    else if kind == "warning" then "#FFA500"
    else if kind == "error" then "#ED544E"
    else "#8237E8"
  }
}

=== FILE: sidebar.dfy ===
/**
 * The application shell's sidebar (WWW-en/js/app.js): the open flag, the
 * toggle button's aria-expanded attribute, the overlay, the shifted main
 * area and the body scroll lock. Below the 768 px breakpoint an open
 * sidebar covers the page with an overlay and locks scrolling; from the
 * breakpoint up it pushes the main area aside instead.
 *
 * The window width is an input. The debounced resize handler is modelled
 * by the state after its timer fires.
 */
module Sidebar {

  const MobileBreakpoint: int := 768

  datatype Shell = Shell(open: bool, ariaExpanded: bool, overlayVisible: bool, mainShifted: bool, bodyLocked: bool)

  /** The page as loaded: everything off. */
  const InitialShell := Shell(false, false, false, false, false)

  /** The flags agree with the open flag and the width. */
  predicate Consistent(s: Shell, width: int)
  {
    s.ariaExpanded == s.open
    && s.overlayVisible == (s.open && width < MobileBreakpoint)
    && s.bodyLocked == s.overlayVisible
    && s.mainShifted == (s.open && width >= MobileBreakpoint)
  }

  /** `openSidebar`: it only adds; on a narrow window the overlay and the
      lock, on a wide one the shift. */
  function Open(s: Shell, width: int): (r: Shell)
    ensures r.open && r.ariaExpanded
    ensures width < MobileBreakpoint ==> r.overlayVisible && r.bodyLocked && r.mainShifted == s.mainShifted
    ensures width >= MobileBreakpoint ==>
              r.mainShifted && r.overlayVisible == s.overlayVisible && r.bodyLocked == s.bodyLocked
  {
    if width < MobileBreakpoint then s.(open := true, ariaExpanded := true, overlayVisible := true, bodyLocked := true)
    else s.(open := true, ariaExpanded := true, mainShifted := true)
  }

  /** `closeSidebar`, also run by the Escape key and by a click on the
      overlay: every flag cleared, whatever the width. */
  function Close(s: Shell): (r: Shell)
    ensures !r.open && !r.ariaExpanded && !r.overlayVisible && !r.mainShifted && !r.bodyLocked
  {
    InitialShell
  }

  /** `toggleSidebar`: close when open, open when closed. */
  function Toggle(s: Shell, width: int): (r: Shell)
    ensures r.open == !s.open
  {
    if s.open then Close(s) else Open(s, width)
  }

  /** `handleResize`: re-derives the overlay, the lock and the shift from
      the new width; the open flag and aria-expanded stay. */
  function Resize(s: Shell, width: int): (r: Shell)
    ensures r.open == s.open && r.ariaExpanded == s.ariaExpanded
    ensures width >= MobileBreakpoint ==>
              !r.overlayVisible && !r.bodyLocked && r.mainShifted == (s.open || s.mainShifted)
    ensures width < MobileBreakpoint ==>
              !r.mainShifted && r.overlayVisible == (s.open || s.overlayVisible) && r.bodyLocked == (s.open || s.bodyLocked)
  {
    if width >= MobileBreakpoint then
      s.(overlayVisible := false, bodyLocked := false, mainShifted := s.open || s.mainShifted)
    else
      s.(mainShifted := false, overlayVisible := s.open || s.overlayVisible, bodyLocked := s.open || s.bodyLocked)
  }

  lemma InitialConsistent(width: int)
    ensures Consistent(InitialShell, width)
  {
  }

  /** Open, close and toggle keep the flags consistent at a fixed width;
      a resize re-establishes them for the new width. */
  lemma TransitionsKeepConsistent(s: Shell, width: int, newWidth: int)
    requires Consistent(s, width)
    ensures Consistent(Open(s, width), width)
    ensures Consistent(Close(s), width)
    ensures Consistent(Toggle(s, width), width)
    ensures Consistent(Resize(s, newWidth), newWidth)
  {
  }

  /** Without the invariant, opening can leave stale flags behind: a shift
      left over from a wide window survives opening on a narrow one. */
  lemma OpenKeepsStaleShift()
    ensures var s := Shell(false, false, false, true, false);
            Open(s, 500).mainShifted && Open(s, 500).overlayVisible
  {
  }

  /** From a consistent state, toggling twice at the same width returns to
      the start. */
  lemma ToggleTwice(s: Shell, width: int)
    requires Consistent(s, width)
    ensures Toggle(Toggle(s, width), width) == s
  {
  }

  /** Crossing the breakpoint moves an open sidebar's effect between the
      overlay and the shift; a closed sidebar shows neither. */
  lemma ResizeAcrossBreakpoint(s: Shell, width: int)
    requires Consistent(s, width)
    ensures Resize(s, 1024).mainShifted == s.open && !Resize(s, 1024).overlayVisible
    ensures Resize(s, 500).overlayVisible == s.open && !Resize(s, 500).mainShifted
  {
  }
}

=== FILE: text.dfy ===
/**
 * The JavaScript string operations the pages rely on, over ASCII:
 * `toLowerCase`/`toUpperCase` on ASCII letters, `trim` on ASCII white
 * space, `includes`/`startsWith` as substring and prefix predicates, and
 * `replace` with a string pattern, which replaces the FIRST occurrence only.
 */
module Text {
  import opened Common

  // ---------------------------------------------------------------------
  // Characters

  predicate IsUpper(c: char) { 'A' <= c <= 'Z' }
  predicate IsLower(c: char) { 'a' <= c <= 'z' }
  predicate IsDigit(c: char) { '0' <= c <= '9' }
  predicate IsAlnum(c: char) { IsUpper(c) || IsLower(c) || IsDigit(c) }

  /** ASCII white space: space, tab, line feed, vertical tab, form feed,
      carriage return. */
  predicate IsSpace(c: char) {
    c == ' ' || c == '\t' || c == '\n' || c == '\U{000B}' || c == '\U{000C}' || c == '\r'
  }

  function LowerChar(c: char): (r: char)
    ensures !IsUpper(r)
    ensures IsUpper(c) ==> IsLower(r) && r as int == c as int + 32
    ensures !IsUpper(c) ==> r == c
  {
    if IsUpper(c) then (c as int + 32) as char else c
  }

  function UpperChar(c: char): (r: char)
    ensures !IsLower(r)
    ensures IsLower(c) ==> IsUpper(r) && r as int == c as int - 32
    ensures !IsLower(c) ==> r == c
  {
    if IsLower(c) then (c as int - 32) as char else c
  }

  /** `toLowerCase`, ASCII letters only. */
  function ToLower(s: string): string
  {
    seq(|s|, i requires 0 <= i < |s| => LowerChar(s[i]))
  }

  /** `toUpperCase`, ASCII letters only. */
  function ToUpper(s: string): string
  {
    seq(|s|, i requires 0 <= i < |s| => UpperChar(s[i]))
  }

  /** Lower-casing leaves nothing to lower-case. */
  lemma ToLowerIdempotent(s: string)
    ensures ToLower(ToLower(s)) == ToLower(s)
    ensures forall k :: 0 <= k < |s| ==> !IsUpper(ToLower(s)[k])
  {
  }

  /** Lower-casing forgets case: an upper-cased string lower-cases to the
      same text as the original. */
  lemma ToLowerOfToUpper(s: string)
    ensures ToLower(ToUpper(s)) == ToLower(s)
  {
    assert forall k :: 0 <= k < |s| ==> LowerChar(UpperChar(s[k])) == LowerChar(s[k]);
  }

  /** Lower-casing distributes over concatenation. */
  lemma ToLowerAppend(a: string, b: string)
    ensures ToLower(a + b) == ToLower(a) + ToLower(b)
  {
  }

  /** `str.charAt(0).toUpperCase() + str.slice(1)`: the first character
      upper-cased, the rest kept, the empty string left empty. */
  function Capitalize(s: string): (r: string)
    ensures |r| == |s|
    ensures |s| > 0 ==> IsLower(s[0]) ==> IsUpper(r[0])
    ensures forall k :: 0 < k < |s| ==> r[k] == s[k]
    ensures |s| > 0 && !IsLower(s[0]) ==> r == s
  {
    if |s| == 0 then s else [UpperChar(s[0])] + s[1..]
  }

  /** Capitalising twice is capitalising once, and capitalising changes
      nothing but case. */
  lemma CapitalizeFacts(s: string)
    ensures Capitalize(Capitalize(s)) == Capitalize(s)
    ensures ToLower(Capitalize(s)) == ToLower(s)
  {
    if |s| > 0 {
      assert ToLower(Capitalize(s))[0] == LowerChar(UpperChar(s[0]));
    }
  }

  // ---------------------------------------------------------------------
  // trim

  predicate AllSpace(s: string) {
    forall k :: 0 <= k < |s| ==> IsSpace(s[k])
  }

  /** `trimStart`: drops the leading white space and nothing else. */
  function TrimStart(s: string): (r: string)
    ensures |r| <= |s| && r == s[|s| - |r|..]
    ensures AllSpace(s[..|s| - |r|])
    ensures |r| > 0 ==> !IsSpace(r[0])
    decreases |s|
  {
    if |s| > 0 && IsSpace(s[0]) then TrimStart(s[1..]) else s
  }

  /** `trimEnd`: drops the trailing white space and nothing else. */
  function TrimEnd(s: string): (r: string)
    ensures |r| <= |s| && r == s[..|r|]
    ensures AllSpace(s[|r|..])
    ensures |r| > 0 ==> !IsSpace(r[|r| - 1])
    decreases |s|
  {
    if |s| > 0 && IsSpace(s[|s| - 1]) then
      var r := TrimEnd(s[..|s| - 1]);
      assert s[|r|..] == s[..|s| - 1][|r|..] + [s[|s| - 1]];
      r
    else s
  }

  /** `trim`: white space removed at both ends. */
  function Trim(s: string): string
  {
    TrimEnd(TrimStart(s))
  }

  /** Where the trimmed text starts in the input. */
  lemma TrimOffset(s: string) returns (i: nat)
    ensures i + |Trim(s)| <= |s|
    ensures Trim(s) == s[i..i + |Trim(s)|]
    ensures AllSpace(s[..i]) && AllSpace(s[i + |Trim(s)|..])
  {
    i := |s| - |TrimStart(s)|;
    TrimOffsetInfix(s, i);
    TrimOffsetSpaces(s, i);
  }

  lemma TrimOffsetInfix(s: string, i: nat)
    requires i == |s| - |TrimStart(s)|
    ensures i + |Trim(s)| <= |s| && Trim(s) == s[i..i + |Trim(s)|]
    ensures s[i + |Trim(s)|..] == TrimStart(s)[|Trim(s)|..]
  {
    PrefixOfSuffix(s, i, TrimStart(s), Trim(s));
  }

  lemma TrimOffsetSpaces(s: string, i: nat)
    requires i == |s| - |TrimStart(s)|
    ensures i + |Trim(s)| <= |s|
    ensures AllSpace(s[..i]) && AllSpace(s[i + |Trim(s)|..])
  {
    TrimOffsetInfix(s, i);
    var t := TrimStart(s);
    assert AllSpace(t[|TrimEnd(t)|..]);
  }

  /** A prefix of a suffix is an infix, and what follows it is the rest of
      the suffix. */
  lemma PrefixOfSuffix<T>(s: seq<T>, i: nat, t: seq<T>, r: seq<T>)
    requires i <= |s| && t == s[i..] && |r| <= |t| && r == t[..|r|]
    ensures i + |r| <= |s| && r == s[i..i + |r|] && s[i + |r|..] == t[|r|..]
  {
  }

  /** Trim cuts an infix out of the input, with white space only on either
      side of it, and the infix neither starts nor ends with white space. */
  lemma TrimIsInfix(s: string)
    ensures exists i :: 0 <= i <= i + |Trim(s)| <= |s|
                        && Trim(s) == s[i..i + |Trim(s)|]
                        && AllSpace(s[..i]) && AllSpace(s[i + |Trim(s)|..])
    ensures |Trim(s)| > 0 ==> !IsSpace(Trim(s)[0]) && !IsSpace(Trim(s)[|Trim(s)| - 1])
  {
    var i := TrimOffset(s);
    var t := TrimStart(s);
    if |Trim(s)| > 0 {
      assert Trim(s)[0] == t[0];
    }
  }

  lemma TrimStartEmptyIff(s: string)
    ensures TrimStart(s) == "" <==> AllSpace(s)
  {
    var r := TrimStart(s);
    if r == "" {
      assert s[..|s|] == s;
    } else {
      assert r[0] == s[|s| - |r|];
    }
  }

  lemma TrimEndEmptyIff(s: string)
    ensures TrimEnd(s) == "" <==> AllSpace(s)
  {
    var r := TrimEnd(s);
    if r == "" {
      assert s[0..] == s;
    } else {
      assert r[|r| - 1] == s[|r| - 1];
    }
  }

  /** A string trims to nothing exactly when it is all white space: the
      test the pages use to ignore a blank input. */
  lemma TrimEmptyIff(s: string)
    ensures Trim(s) == "" <==> AllSpace(s)
  {
    var t := TrimStart(s);
    TrimStartEmptyIff(s);
    TrimEndEmptyIff(t);
    assert AllSpace(t) ==> t == "" by {
      if |t| > 0 {
        assert !IsSpace(t[0]);
      }
    }
  }

  /** White space in front of a string does not survive trimming. */
  lemma TrimLeadingSpace(c: char, s: string)
    requires IsSpace(c)
    ensures Trim([c] + s) == Trim(s)
  {
    assert ([c] + s)[1..] == s;
  }

  /** Trimming twice is trimming once. */
  lemma TrimIdempotent(s: string)
    ensures Trim(Trim(s)) == Trim(s)
  {
    var r := Trim(s);
    TrimIsInfix(s);
    if |r| > 0 {
      assert TrimStart(r) == r;
      assert TrimEnd(r) == r;
    }
  }

  /** Upper-casing commutes with trimming: it never turns a blank into a
      non-blank or back. */
  lemma TrimOfUpper(s: string)
    ensures Trim(ToUpper(s)) == ToUpper(Trim(s))
  {
    UpperKeepsSpace(s);
    TrimStartOfUpper(s);
    TrimEndOfUpper(TrimStart(s));
  }

  lemma UpperKeepsSpace(s: string)
    ensures forall k :: 0 <= k < |s| ==> (IsSpace(ToUpper(s)[k]) <==> IsSpace(s[k]))
  {
  }

  lemma {:induction false} TrimStartOfUpper(s: string)
    ensures TrimStart(ToUpper(s)) == ToUpper(TrimStart(s))
    decreases |s|
  {
    UpperKeepsSpace(s);
    if |s| > 0 && IsSpace(s[0]) {
      assert ToUpper(s)[1..] == ToUpper(s[1..]);
      TrimStartOfUpper(s[1..]);
    }
  }

  lemma {:induction false} TrimEndOfUpper(s: string)
    ensures TrimEnd(ToUpper(s)) == ToUpper(TrimEnd(s))
    decreases |s|
  {
    UpperKeepsSpace(s);
    if |s| > 0 && IsSpace(s[|s| - 1]) {
      assert ToUpper(s)[..|s| - 1] == ToUpper(s[..|s| - 1]);
      TrimEndOfUpper(s[..|s| - 1]);
    }
  }

  // ---------------------------------------------------------------------
  // startsWith, includes

  predicate StartsWith(s: string, prefix: string) {
    |prefix| <= |s| && s[..|prefix|] == prefix
  }

  /** `sub` sits in `s` starting at index `i`. */
  predicate OccursAt(s: string, sub: string, i: int) {
    0 <= i && i + |sub| <= |s| && s[i..i + |sub|] == sub
  }

  /** `includes`, scanning from the left. */
  predicate Contains(s: string, sub: string)
    decreases |s|
  {
    StartsWith(s, sub) || (|s| > 0 && Contains(s[1..], sub))
  }

  lemma {:induction false} ContainsIff(s: string, sub: string)
    ensures Contains(s, sub) <==> exists i :: OccursAt(s, sub, i)
    decreases |s|
  {
    if StartsWith(s, sub) {
      assert OccursAt(s, sub, 0);
    } else if |s| > 0 {
      ContainsIff(s[1..], sub);
      if Contains(s[1..], sub) {
        var i :| OccursAt(s[1..], sub, i);
        assert s[i + 1..i + 1 + |sub|] == s[1..][i..i + |sub|];
        assert OccursAt(s, sub, i + 1);
      }
      if exists i :: OccursAt(s, sub, i) {
        var i :| OccursAt(s, sub, i);
        assert i != 0;
        assert s[1..][i - 1..i - 1 + |sub|] == s[i..i + |sub|];
        assert OccursAt(s[1..], sub, i - 1);
      }
    }
  }

  /** A string contains each of its own infixes. */
  lemma ContainsInfix(s: string, i: int, sub: string)
    requires OccursAt(s, sub, i)
    ensures Contains(s, sub)
  {
    ContainsIff(s, sub);
  }

  /** Containment is transitive: what contains a longer query contains
      every part of it. */
  lemma ContainsTransitive(s: string, mid: string, sub: string)
    requires Contains(s, mid) && Contains(mid, sub)
    ensures Contains(s, sub)
  {
    ContainsIff(s, mid);
    ContainsIff(mid, sub);
    var i :| OccursAt(s, mid, i);
    var j :| OccursAt(mid, sub, j);
    assert s[i..i + |mid|] == mid;
    forall k | 0 <= k < |sub| ensures s[i + j + k] == sub[k] {
      assert s[i + j + k] == s[i..i + |mid|][j + k];
      assert mid[j + k] == mid[j..j + |sub|][k];
    }
    assert s[i + j..i + j + |sub|] == sub;
    ContainsInfix(s, i + j, sub);
  }

  // ---------------------------------------------------------------------
  // indexOf and replace

  /** The first index at or after `from` where `pat` occurs. */
  function IndexFrom(s: string, pat: string, from: nat): (r: Option<nat>)
    requires from <= |s|
    ensures r.Some? ==> from <= r.value && OccursAt(s, pat, r.value)
    ensures r.Some? ==> forall k :: from <= k < r.value ==> !OccursAt(s, pat, k)
    ensures r.None? ==> forall k :: from <= k ==> !OccursAt(s, pat, k)
    decreases |s| - from
  {
    if OccursAt(s, pat, from) then Some(from)
    else if from == |s| then None
    else IndexFrom(s, pat, from + 1)
  }

  /** `indexOf`: the first occurrence of `pat`, if any. */
  function IndexOf(s: string, pat: string): (r: Option<nat>)
    ensures r.Some? ==> OccursAt(s, pat, r.value)
                        && forall k :: 0 <= k < r.value ==> !OccursAt(s, pat, k)
    ensures r.None? <==> forall k :: !OccursAt(s, pat, k)
  {
    IndexFrom(s, pat, 0)
  }

  /** `s.replace(pat, rep)` with a string pattern: only the first
      occurrence is replaced; without one the string is returned as is. */
  function ReplaceFirst(s: string, pat: string, rep: string): string
  {
    match IndexOf(s, pat)
    case None => s
    case Some(i) => s[..i] + rep + s[i + |pat|..]
  }

  /** Replacing a pattern that occurs nowhere changes nothing; a pattern at
      the very front is cut off there whatever follows. */
  lemma ReplaceFirstFacts(s: string, pat: string, rep: string)
    ensures (forall k :: !OccursAt(s, pat, k)) ==> ReplaceFirst(s, pat, rep) == s
    ensures StartsWith(s, pat) ==> ReplaceFirst(s, pat, rep) == rep + s[|pat|..]
  {
    if StartsWith(s, pat) {
      assert OccursAt(s, pat, 0);
    }
  }

  /** Removing the first occurrence of `pat` from `pat + t` gives back `t`. */
  lemma RemovePrefixedPattern(pat: string, t: string)
    ensures ReplaceFirst(pat + t, pat, "") == t
  {
    assert (pat + t)[..|pat|] == pat;
    ReplaceFirstFacts(pat + t, pat, "");
    assert (pat + t)[|pat|..] == t;
  }

  /** A single character occurs at `i` exactly when it is `s[i]`. */
  lemma OccursAtChar(s: string, c: char, i: int)
    requires 0 <= i < |s|
    ensures OccursAt(s, [c], i) <==> s[i] == c
  {
    if s[i] == c {
      assert s[i..i + 1] == [c];
    }
  }

  // ---------------------------------------------------------------------
  // join and split

  /** `xs.join(sep)` with a one-character separator. */
  function Join(xs: seq<string>, sep: char): string
    decreases |xs|
  {
    if |xs| == 0 then ""
    else if |xs| == 1 then xs[0]
    else xs[0] + [sep] + Join(xs[1..], sep)
  }

  /** `s.split(sep)` with a one-character separator: never empty. */
  function Split(s: string, sep: char): (r: seq<string>)
    ensures |r| >= 1
    decreases |s|
  {
    match IndexOf(s, [sep])
    case None => [s]
    case Some(i) => [s[..i]] + Split(s[i + 1..], sep)
  }

  /** The first `c` in `x + [c] + y` is the one after `x` when `x` has
      none. */
  lemma IndexOfAfterPrefix(x: string, c: char, y: string)
    requires c !in x
    ensures IndexOf(x + [c] + y, [c]) == Some(|x|)
  {
    var s := x + [c] + y;
    OccursAtChar(s, c, |x|);
    forall k | 0 <= k < |x| ensures !OccursAt(s, [c], k) {
      OccursAtChar(s, c, k);
      assert s[k] == x[k];
    }
  }

  lemma NoCharNoIndex(x: string, c: char)
    requires c !in x
    ensures IndexOf(x, [c]).None?
  {
    forall k | 0 <= k < |x| ensures !OccursAt(x, [c], k) {
      OccursAtChar(x, c, k);
    }
  }

  /** Splitting undoes joining when no part holds the separator. */
  lemma {:induction false} SplitJoin(xs: seq<string>, sep: char)
    requires |xs| >= 1
    requires forall k :: 0 <= k < |xs| ==> sep !in xs[k]
    ensures Split(Join(xs, sep), sep) == xs
    decreases |xs|
  {
    if |xs| == 1 {
      NoCharNoIndex(xs[0], sep);
    } else {
      var rest := Join(xs[1..], sep);
      var s := xs[0] + [sep] + rest;
      IndexOfAfterPrefix(xs[0], sep, rest);
      assert s[..|xs[0]|] == xs[0];
      assert s[|xs[0]| + 1..] == rest;
      SplitJoin(xs[1..], sep);
    }
  }

  // ---------------------------------------------------------------------
  // Number to text

  function DigitChar(d: nat): (c: char)
    requires d < 10
    ensures IsDigit(c)
    ensures c == '0' <==> d == 0
  {
    ('0' as int + d) as char
  }

  /** The value of a decimal digit character. */
  function DigitValue(c: char): (d: nat)
    requires IsDigit(c)
    ensures d < 10 && DigitChar(d) == c
  {
    c as int - '0' as int
  }

  predicate AllDigits(s: string)
  {
    forall k :: 0 <= k < |s| ==> IsDigit(s[k])
  }

  /** The number a string of decimal digits denotes, read most significant
      digit first. */
  function DigitsValue(s: string): nat
    requires AllDigits(s)
    decreases |s|
  {
    if s == [] then 0 else DigitsValue(s[..|s| - 1]) * 10 + DigitValue(s[|s| - 1])
  }

  /** The decimal digits of a natural number, as JavaScript prints it: no
      leading zero, so only zero itself starts with '0'. */
  function NatToString(n: nat): (r: string)
    ensures |r| > 0 && AllDigits(r)
    ensures r[0] == '0' <==> n == 0
    ensures |r| == 1 <==> n < 10
    decreases n
  {
    if n < 10 then [DigitChar(n)] else NatToString(n / 10) + [DigitChar(n % 10)]
  }

  /** The text of an integer as JavaScript prints it: an optional minus sign
      followed by at least one digit. */
  predicate IntText(r: string)
  {
    |r| > 0 && (r[0] == '-' || IsDigit(r[0])) && (r[0] == '-' ==> |r| > 1)
    && forall k :: 0 < k < |r| ==> IsDigit(r[k])
  }

  /** Reading an integer back from its text. */
  function ParseInt(r: string): int
    requires IntText(r)
  {
    if r[0] == '-' then -(DigitsValue(r[1..]) as int) else DigitsValue(r) as int
  }

  /** An integer as JavaScript prints it: a minus sign exactly for negative
      numbers, then the digits of its magnitude without a leading zero. */
  function IntToString(i: int): (r: string)
    ensures IntText(r)
    ensures r[0] == '-' <==> i < 0
    ensures forall k :: 0 <= k < |r| ==> IsDigit(r[k]) || r[k] == '-'
    ensures |r| > 1 && r[0] != '-' ==> r[0] != '0'
    ensures r[0] == '-' ==> r[1] != '0'
  {
    if i < 0 then "-" + NatToString(-i) else NatToString(i)
  }

  /** The digits printed for a natural number denote that number. */
  lemma {:induction false} NatToStringValue(n: nat)
    ensures DigitsValue(NatToString(n)) == n
    decreases n
  {
    var r := NatToString(n);
    if n >= 10 {
      assert r[..|r| - 1] == NatToString(n / 10);
      NatToStringValue(n / 10);
    }
  }

  /** Printing an integer and reading it back gives the same integer. */
  lemma IntToStringRoundTrip(i: int)
    ensures ParseInt(IntToString(i)) == i
  {
    if i < 0 {
      assert IntToString(i)[1..] == NatToString(-i);
      NatToStringValue(-i);
    } else {
      NatToStringValue(i);
    }
  }

  /** Different integers print differently. */
  lemma IntToStringInjective(i: int, j: int)
    requires IntToString(i) == IntToString(j)
    ensures i == j
  {
    IntToStringRoundTrip(i);
    IntToStringRoundTrip(j);
  }
}
